=== FILE: README.md ===
# unimail client: a Dafny model

This project models the core of the unimail JavaScript client, an HTTP client
for an email-templating API. There are two versions of it: the current one
(`src/index.js`, variant `Current`) and the older one (`index.js`, variant
`Legacy`). The shared logic is modelled once. Where the two differ, a
`Variant` parameter decides.

The model covers:

- `CacheManager`: the fingerprint hash of `key + secret`, and `get`/`set` on
  the namespaced cache file.
- Configuration resolution: which config file is used, its merge over the
  defaults (memoised in `_config`), the precedence of `getConfigValue` and its
  missing-value error, and `getBaseURL`.
- The session key: `_getSessionKey`, driven by the `sessionKey` override, the
  in-memory `_sessionKey`, the cache and `force`; and `getSessionKey`.
- `_catchCommonErrors`: the classification of failures into fixed
  user-facing errors.
- `withSessionKey`: the unbounded 401 retry of `Current` and the single
  attempt of `Legacy`.
- `_request`'s query, URL and body shaping, `request`, and
  `TemplateResource.index`/`render`.

The modules follow the program's structure:

- `JsValues` (`js_values.dfy`): JavaScript values, truthiness, `||`, string
  conversion, `+`, `toString(radix)`, the 32-bit view taken by `<<`, and
  thrown errors.
- `CacheStore` (`cache_store.dfy`): the hash, the store functions, and the
  `StoreFile` and `CacheManager` classes.
- `Configuration` (`configuration.dfy`): config file choice, merge,
  `getConfigValue`, the base URL and the constructor's cache settings.
- `ErrorHandling` (`error_handling.dfy`): `_catchCommonErrors` and its
  messages.
- `Requests` (`requests.dfy`): `_request`'s shaping, the response unwrap of
  `request`, and the template endpoints.
- `Session` (`session.dfy`): the session logic as functions over a
  `Snapshot`, which holds the in-memory key, the cache file, the requests
  sent and the log lines written. These functions are the specification the
  client class is proved against.
- `Client` (`client.dfy`): the `UnimailClient` class, with `_config` and
  `_sessionKey` as fields, a `Transport` and a `Logger`. Each method is
  proved to return, and leave behind, exactly what its `Session` or
  `Configuration` function describes.

The HTTP transport is a `Server`: a function from the request number and the
request to an outcome, either a response or a thrown error. The cache file is
an `Option<Store>` held by a `StoreFile` object. The environment and the
config files on disk are parameters.

Behaviours of the code that a reader might not expect, all modelled as
written:

- A 401 from the callback makes `withSessionKey` in `Current` retry with
  `force = true` with no bound, not exactly once.
  `Session.ExpiringSessionRetriesForever` shows a server on which the retries
  never end. The model follows the retries with a `fuel` count.
- A cache hit in `_getSessionKey` is returned without being stored in
  `_sessionKey`.
- `getConfigValue` takes the first *truthy* source. A falsy option such as
  `cache: false` falls through to the environment and the configuration, and
  `cache` is a required value. So a constructed client always has a cache.
- `_catchCommonErrors` tests a 401 status first, before the host-not-found
  and connection-refused codes.
- A failure to get the session key passes through two handlers when it
  happens inside `request`: `getSessionKey`'s and `request`'s own. The
  second rethrows it unchanged and logs it as an unknown exception. That is
  a second log line only when `getSessionKey`'s handler had already logged
  it as unknown; a 401, a host-not-found, a refused connection or a server
  error is classified there without a log line. A failure of the callback other than a 401 is rethrown by
  `withSessionKey` as it is, so it meets only `request`'s handler, which
  classifies it with no action named.
- `Legacy` defaults `port` to 80 and always puts it in the base URL.

## Model

| member | source | states |
|---|---|---|
| JsValues.Or | src/index.js:152 | `a \|\| b` is `a` when `a` is truthy and `b` otherwise. The result is truthy iff one operand is. |
| JsValues.ToInt32 | src/index.js:55 | The 32-bit view `<<` takes: a signed 32-bit integer congruent to its input modulo 2^32. |
| JsValues.ShiftLeft5 | src/index.js:55 | `x << 5` is a signed 32-bit integer congruent to `32 * x` modulo 2^32. |
| JsValues.IntToRadixRoundTrip | src/index.js:58 | `toString(radix)` of an integer (with a leading `-` for negatives) parses back to the same integer. |
| JsValues.IntToRadixInjective | src/index.js:58 | Two integers have the same radix rendering iff they are equal. |
| JsValues.Plus | src/index.js:47 | `key + secret`: the result is a string iff either operand is a string, an array or an object, and it is then the two string conversions concatenated. Otherwise it is the sum of the operands as numbers. Two strings concatenate. |
| JsValues.LowerAscii | src/index.js:279 | `toLowerCase` maps each character and keeps the length. |
| JsValues.UpperAscii | src/index.js:151 | `toUpperCase` maps each character and keeps the length. |
| JsValues.NewError | src/index.js:224 | `new Error(message)` carries the message and no status, code or response. |
| JsValues.CodeUnitsOf | src/index.js:52-54 | A character is one UTF-16 code unit below 0x10000, and otherwise a surrogate pair that decodes back to it. A single unit is never a surrogate. |
| JsValues.CodeUnits | src/index.js:52-54 | What `length` counts and `charCodeAt` reads: one or two code units per character, each below 0x10000. |
| JsValues.CodeUnitsOfBmp | src/index.js:52-54 | A string of characters below 0x10000 has exactly its characters' codes as code units. |
| JsValues.CodeUnitsAppend | src/index.js:47 | The code units of `key + secret` are those of `key` followed by those of `secret`. |
| CacheStore.HashNumber | src/index.js:53-56 | Definition of the number the hash loop holds after its last code unit. `CacheStore.Hash` proves the loop equal to it, and `CacheStore.HashNumberBound` bounds it. |
| CacheStore.FingerprintKey | src/index.js:50-59 | Definition of the namespace key: `0` for a number, the hex rendering of `HashNumber` for a string. See `CacheStore.Hash` and `CacheStore.FingerprintKeysAgree`. |
| CacheStore.Hash | src/index.js:50-59 | The hash loop: an empty string gives the number 0. A non-empty string gives the hex rendering of the left fold `h := (h << 5) - h + charCode` over its UTF-16 code units, starting from 0. A number (no `length`) gives `"0"`. The property key it becomes is always `FingerprintKey(input)`. |
| CacheStore.HashNumberBound | src/index.js:53-56 | After `n` code units, each below 0x10000, the folded hash lies within `n * 2^32` of zero. |
| CacheStore.FingerprintKeysAgree | src/index.js:58 | Two strings share a namespace iff the hashes folded over their code units are equal. |
| CacheStore.FingerprintSeesOnlyConcatenation | src/index.js:47 | The namespace depends only on `key + secret`. |
| CacheStore.SplitCredentialsCollide | src/index.js:47 | ("ab", "c") and ("a", "bc") share a namespace. |
| CacheStore.Lookup | src/index.js:61-73 | `get`: `null` without a file or without this namespace. Otherwise the stored value, `undefined` for a key never written. |
| CacheStore.Insert | src/index.js:75-87 | `set`: an absent file counts as `{}`. The namespace is created if missing. The key gets the value. Every other namespace and every other key is kept. |
| CacheStore.LookupAfterInsert | src/index.js:61-87 | `get(k)` after `set(k, v)` gives `v`. |
| CacheStore.LookupFrame | src/index.js:61-87 | `set` leaves every other namespace, and every other key of its namespace, reading as before. The one change: a key read from a namespace that did not exist turns from `null` into `undefined`. |
| CacheStore.CacheManager.constructor | src/index.js:45-48 | The namespace is `FingerprintKey(key + secret)`. |
| CacheStore.CacheManager.Get | src/index.js:61-73 | Returns `Lookup` of the file's contents and changes nothing. |
| CacheStore.CacheManager.Set | src/index.js:75-87 | The file's contents become `Insert` of the old contents. |
| Configuration.DefaultConfig | src/index.js:31-35 | Defaults to host `api.unimail.co`, protocol `https` and the default cache file. `Legacy` also has port 80 (index.js:26-31). |
| Configuration.ConfigFileBase | src/index.js:113 | Definition: `options.configFile` when truthy, the default base path otherwise. `Configuration.ChooseConfigFile` states the choice made from it. |
| Configuration.ChooseConfigFile | src/index.js:113-122 | The config file used is the first existing one of the bare path, `.json` and `.js`. There is none iff none of the three exists. |
| Configuration.Merge | src/index.js:141 | The file's values override the defaults. Every key of either side is kept. |
| Configuration.ResolvedConfig | src/index.js:135-146 | The `config` object: the defaults when no file was found. Otherwise every file key with the file's value, and every other default key with its default. |
| Configuration.SnakeCase | src/index.js:151 | Definition of lodash `snakeCase` on camelCase keys. Its meaning is stated by `SnakeCaseOnlyInsertsUnderscores`, `SnakeCaseAppend` and `SnakeCaseAt`. |
| Configuration.SnakeCaseOnlyInsertsUnderscores | src/index.js:151 | `snakeCase` of a key has no upper-case letter. Without its underscores it is the key, without its own, in lower case. |
| Configuration.SnakeCaseAppend | src/index.js:151 | `snakeCase` of `a + b` is that of `a`, then that of `b` as if it followed `a`'s last character. |
| Configuration.SnakeCaseAt | src/index.js:151 | Each character maps to its lower-case form. It is preceded by `_` exactly when it is an upper-case letter after a lower-case letter or a digit. |
| Configuration.EnvKey | src/index.js:151 | Definition: `UNIMAIL_` followed by the upper-cased `snakeCase` of the key. See `EnvKeyPrefix` and `EnvKeyOfTokenKey`. |
| Configuration.EnvKeyPrefix | src/index.js:151 | Every environment variable consulted starts with `UNIMAIL_`. |
| Configuration.SnakeCaseOfKey | src/index.js:151 | The word `Key` after a lower-case letter becomes `_key`. |
| Configuration.SnakeCaseOfTokenKey | src/index.js:151 | `snakeCase("tokenKey")` is `token_key`. |
| Configuration.EnvKeyOfTokenKey | src/index.js:151 | `tokenKey` is read from `UNIMAIL_TOKEN_KEY`. |
| Configuration.GetConfigValue | src/index.js:148-166 | The first truthy of option, `UNIMAIL_<KEY>` environment variable and configuration. It fails iff the value is required and none is truthy, with the missing-value error. A falsy result only comes from an optional read and is the configuration's value. |
| Configuration.RequiredReadAgrees | src/index.js:184-185 | When the optional read is truthy, the required read gives the same value. |
| Configuration.MissingValueMessageNamesKey | src/index.js:158-162 | The missing-value error starts with `unimail API Error:` and names the key and its environment variable. |
| Configuration.MissingValueMessageNamesConfigFile | src/index.js:154-162 | The error names the located config file, or both default `.js` and `.json` paths when there is none. |
| Configuration.FalsyOptionFallsThrough | src/index.js:152 | With a falsy option and no environment variable, a required read gives the configuration's truthy value or the missing-value error. |
| Configuration.CacheFalseKeepsDefault | src/index.js:129-132 | `cache: false` passed as an option still gives the default cache file. |
| Configuration.BaseUrl | src/index.js:168-176 | `getBaseURL` fails with the error of the `protocol` read when that read fails, and always with a plain error. It succeeds only when protocol and host are configured. |
| Configuration.BaseUrlFailsLikeFirstRead | src/index.js:168-176 | `getBaseURL` fails like the first missing value it reads: `protocol`, then `host`, then in `Legacy` the required `port`. In `Current` it succeeds whenever protocol and host are configured. |
| Configuration.BaseUrlWithoutPort | src/index.js:168-176 | In `Current`, no truthy port gives exactly `protocol://host`, with no `:undefined` and no default port. |
| Configuration.BaseUrlWithPort | src/index.js:170-172 | In `Current`, a truthy port gives `protocol://host:port`. |
| Configuration.LegacyBaseUrlHasPort | index.js:145-147 | In `Legacy`, the base URL always has the form `protocol://host:port`. It fails when no source has a truthy port. |
| Configuration.BaseUrlFromHostAndProtocol | src/index.js:168-176 | A configuration with host `api.example.com`, protocol `https` and no port gives `https://api.example.com`. |
| Configuration.ReadFromConfig | src/index.js:152 | With no options and no environment, a successful read gives the configuration's value. |
| Configuration.CacheConfig | src/index.js:129-132 | The constructor fails like the first failing required read of `cache`, `tokenKey` and `tokenSecret`, in that order. On success, the cache path and the two credentials are what those reads give, and both credentials are truthy. |
| Configuration.ConstructedClientHasCache | src/index.js:129-132 | `cache` is required, so a client that can be constructed always has a cache and both credentials. |
| ErrorHandling.CatchCommonErrors | src/index.js:231-259 | The rules apply in this order: a 401 status gives the invalid-credentials error. `ENOTFOUND` and `ECONNREFUSED` give an error naming the base URL, or the base URL's own error. A truthy `response.data.error` gives an error naming the status, the server's message and the action. Anything else is logged iff it reaches this last rule, and rethrown unchanged. Whatever is not rethrown starts with the prelude. |
| ErrorHandling.NamesBaseUrl | src/index.js:239-247 | Both network messages start with the prelude and contain the base URL. |
| ErrorHandling.ServerErrorMessageNames | src/index.js:251-253 | The server-error message starts with the prelude and names the quoted server message and the status. |
| ErrorHandling.ServerErrorMessageNamesAction | src/index.js:249-252 | With a gerund, the server-error message contains ` while <gerund>`. |
| ErrorHandling.ServerSaysNames | src/index.js:252 | The tail of the server-error message names the status and the quoted server message. |
| ErrorHandling.HandlingTwiceRethrows | src/index.js:306-322 | A second handler rethrows what the first one threw, unchanged. |
| ErrorHandling.PlainErrorsAreRethrown | src/index.js:255-257 | An error the client built itself is logged as unknown and rethrown as it is. |
| Requests.Put | src/index.js:279 | Setting a field gives it the value, keeps every other field's value and keeps keys unique. |
| Requests.AssignIn | src/index.js:279 | Copying fields keeps keys unique. The keys are the union of both sides. |
| Requests.AssignInFields | src/index.js:279 | After `assignIn`, a copied key has the source's value and every other key keeps the target's. |
| Requests.MergedQuery | src/index.js:279 | Definition of `assignInAll([data, query])` for a GET. `Requests.MergedQueryFields` states each of its fields. |
| Requests.MergedQueryFields | src/index.js:279 | A GET's query has every key of `data` and of `query`. Where both have a key, `query`'s value wins. |
| Requests.FieldPairs | src/index.js:280 | Each `key=value` pair starts with `key=`. An array gives one pair per item. |
| Requests.QueryString | src/index.js:280 | Definition of `querystring.stringify`: the `key=value` pairs joined with `&`. See `Requests.FieldPairs` and `Requests.QueryStringEmpty`. |
| Requests.QueryStringEmpty | src/index.js:280-281 | The query string is empty iff every own field of the query is an empty array. |
| Requests.ShapeRequest | src/index.js:278-283 | The URL is the endpoint, then `?` and the query string only when that is non-empty. A GET sends no body. Any other method sends `data`. Method, headers and base URL pass through. |
| Requests.MethodCaseInsensitive | src/index.js:279-283 | Methods differing only in case shape the same URL and body. |
| Requests.NonGetQueryIsUnmerged | src/index.js:279 | For a non-GET method, `data` does not affect the URL. |
| Requests.GetDataGoesToQuery | src/index.js:279-283 | A GET's `data` goes into the URL's query and never into the body. |
| Requests.Unwrap | src/index.js:319 | `response.data \|\| response` is always truthy: the data when it is truthy, otherwise the response with its status. |
| Requests.IndexSpec | src/index.js:95-100 | `templates.index()` is a GET of `/v1/templates` with no data and no query. |
| Requests.RenderSpec | src/index.js:102-108 | `templates.render` fails iff `options` is missing. Otherwise it is a POST to `/v1/templates/<id>/renders` with `options.query` and no data. |
| Requests.IndexRequest | src/index.js:95-100 | The index request asks for exactly `/v1/templates`, with no body. |
| Requests.RenderRequest | src/index.js:102-108 | A render sends no body. Its URL starts with the `renders` endpoint and is exactly that endpoint when there is no query. |
| Session.Credentials | src/index.js:196-199 | The credentials object fails like the first missing credential, `tokenKey` before `tokenSecret`. |
| Session.ReadsDetermineSetup | src/index.js:148-176 | What a client reads from its settings determines its setup. |
| Session.MakeSetup | src/index.js:148-176 | Every settings source has a setup that reads it. |
| Session.SessionRequest | src/index.js:196-199 | Authentication is a POST of the credentials to `/v1/sessions` with no headers. It can be built iff the credentials and the base URL can be read, and fails like the credentials first. |
| Session.AdoptToken | src/index.js:201-217 | A truthy `sessionToken` becomes the in-memory key and is written to the cache. Nothing is sent, and the log only grows. Without a token nothing changes. |
| Session.TokenIn | src/index.js:201 | A token is only taken when it is truthy. |
| Session.FetchedToken | src/index.js:196-201 | A fetched token is truthy, and comes from a request that could be built. |
| Session.Authenticate | src/index.js:195-218 | The fetch step fails before sending when the request cannot be built. Otherwise it sends exactly that request. A rejection by the transport is its failure, so it fails iff the request cannot be built or is rejected. A token in the response is adopted. Without one, the key and the cache are unchanged. |
| Session.AcquireSessionKey | src/index.js:183-225 | `_getSessionKey`: a truthy override is returned and nothing changes. If not forced with no key held, a cache hit is returned without adopting it. A held key is reused unless forced. It fails only on the fetch step: with the request's own error when it cannot be built, and with the transport's rejection, a forced refresh included. At most one request goes out, and only on the fetch step. What settles is truthy. The key and the cache only take a fresh token. |
| Session.FetchOrReuse | src/index.js:195-224 | Past the override and the cache, a held key is reused unless forced, and nothing is sent. Otherwise a failed fetch throws its failure, and a fetch that leaves no key held throws the no-token error. A settled key is truthy and is the in-memory key. |
| Session.GetSessionKey | src/index.js:227-229 | `getSessionKey` passes a key through. A failure is classified as "getting a session key", and what the classification logs is appended. |
| Session.AuthenticatesExactlyWhen | src/index.js:183-225 | An authentication request goes out iff neither the override nor the cache answers, no key is held or the call is forced, and the request can be built. Otherwise nothing is sent. |
| Session.CachedTokenServesNextClient | src/index.js:188-216 | A token fetched with a cache is served from the cache to the next client with the same credentials. That client sends nothing and changes nothing. |
| Session.ForcedRefreshWithoutTokenKeepsOldKey | src/index.js:195-222 | A forced refresh whose response has no token settles with the key already held. |
| Session.MissingTokenIsReported | src/index.js:220-229 | With no key held, a response without a token throws the no-token error. `getSessionKey` logs it as unknown and rethrows it. |
| Session.RunAction | src/index.js:308-319 | `request`'s callback sends exactly one request, shaped with the `session` header. It fails before sending when the base URL cannot be read. A response gives `response.data \|\| response`, which is truthy. A rejection is the callback's failure. |
| Session.Round | src/index.js:261-275 | One round never diverges. It asks for a retry only after a 401 from the callback. A returned response is truthy. |
| Session.RoundOutcome | src/index.js:261-275 | A failure to get the key, and a callback failure other than a 401, are rethrown unchanged and ask for no retry. A callback's value is returned. A callback failure asks for a retry iff it is a 401. |
| Session.SettledRoundEndsCall | src/index.js:261-276 | A round that does not ask for a retry settles `withSessionKey` with that round's result. |
| Session.CallbackFailureIsRethrown | src/index.js:265-267 | A callback failure other than a 401 reaches the caller of `withSessionKey` unchanged, after one round. |
| Session.RetryingCall | src/index.js:261-276 | `withSessionKey` with no fuel has not settled. A returned response is truthy. |
| Session.Attempt | src/index.js:261-276 | A call that runs a round returns a truthy response when it returns one. |
| Session.SingleCall | index.js:227-235 | `Legacy`'s `withSessionKey` always settles, and a returned response is truthy. |
| Session.SingleCallOutcome | index.js:227-235 | In `Legacy`, a failure to get the key is rethrown as it is and a callback's value is returned. A callback's failure is classified with no action named and logged as an object, and what the classification gives is thrown. |
| Session.WithSessionKey | src/index.js:261-276 | Only `Current` can keep retrying. A returned response is truthy. |
| Session.Request | src/index.js:306-322 | `request` returns a truthy value. Unless `withSessionKey` threw, it gives what `withSessionKey` gave. A failure is classified once more with no action named, and what that logs is appended. |
| Session.CallbackServerErrorNamesNoAction | src/index.js:306-322 | A callback failure carrying a server error (no 401, no network code) reaches `request`'s caller as the server-error message with no action named. |
| Session.TemplatesRender | src/index.js:102-108 | A render without `options` fails before anything is sent or logged. Otherwise it is `request` of the render request. |
| Session.RoundBounds | src/index.js:261-276 | A round only appends to what was sent and logged, and sends at most two requests. |
| Session.KeyStepBounds | src/index.js:183-229 | Getting the key only appends, sends at most one request and only grows the log. |
| Session.ActionStepBounds | src/index.js:308-319 | The callback sends at most one request and logs nothing. |
| Session.RetryingCallBounds | src/index.js:261-276 | Across `fuel` rounds, requests and log lines are only appended, with at most two requests per round. |
| Session.FuelMonotone | src/index.js:261-276 | A call that settles with some fuel settles the same way with more. |
| Session.ExpiringServerAsksForRetry | src/index.js:266-274 | On a server where every session expires at once, every round of a request asks for a retry. |
| Session.RetryStep | src/index.js:274 | A round asking for a retry hands over to a forced retry from the state it left. |
| Session.ExpiringSessionRetriesForever | src/index.js:261-276 | On that server a request has still not settled after any number of rounds: the retry is unbounded. |
| Session.RetryingForever | src/index.js:261-276 | A call whose every round asks for a retry has not settled after any number of rounds. |
| Session.LegacyMakesOneAttempt | index.js:227-235 | `Legacy`'s `withSessionKey` never forces and never retries. It always settles and sends at most two requests. |
| Session.KeyFailureIsRethrownByRequest | src/index.js:306-322 | A failure to get the key reaches `request`'s caller unchanged, and is logged once more as an unknown exception. |
| Client.Transport.Send | src/index.js:297-303 | The transport answers with its response to the request's number and records the request. |
| Client.Logger.Write | src/index.js:256 | A written line is appended. |
| Client.UnimailClient.constructor | src/index.js:112-127 | Allocates a client holding its settings and a setup that reads them, with no `_config` and no `_sessionKey` yet. `Client.CreateClient` then makes the reads of the source's constructor. |
| Client.UnimailClient.OverrideRead | src/index.js:184 | The setup's override is the optional `sessionKey` read. |
| Client.UnimailClient.CredentialsRead | src/index.js:196-199 | The setup's credentials are those of the client's settings. |
| Client.UnimailClient.BaseUrlRead | src/index.js:168-176 | The setup's base URL is the client's `getBaseURL`. |
| Client.UnimailClient.Config | src/index.js:135-146 | Returns the resolved configuration. `_config` is set to it when a file was found, and left as it was otherwise. |
| Client.UnimailClient.GetConfigValue | src/index.js:148-166 | Returns `Configuration.GetConfigValue` of the client's sources. `_config` is memoised only when a config file was found and the read got past the option and the environment variable. |
| Client.UnimailClient.GetBaseUrl | src/index.js:168-176 | Returns `Configuration.BaseUrl` of the client's sources. |
| Client.UnimailClient.WithPort | src/index.js:170-175 | Returns the port segment of `Configuration.BaseUrl`. |
| Client.UnimailClient.Credentials | src/index.js:196-199 | Returns `Session.Credentials` of the client's sources. |
| Client.UnimailClient.CatchCommonErrors | src/index.js:231-259 | Throws what `ErrorHandling.CatchCommonErrors` throws, and writes what it logs. |
| Client.UnimailClient.RawRequest | src/index.js:278-304 | Hands the transport exactly the shaped request, unless the base URL fails first. |
| Client.UnimailClient.AdoptToken | src/index.js:201-217 | Leaves the key, cache, sent requests and log as `Session.AdoptToken` says. |
| Client.UnimailClient.Authenticate | src/index.js:195-218 | Fails and leaves the state as `Session.Authenticate` says. |
| Client.UnimailClient.AcquireSessionKey | src/index.js:183-225 | Returns and leaves the state as `Session.AcquireSessionKey` says. |
| Client.UnimailClient.FetchOrReuse | src/index.js:195-224 | Returns and leaves the state as `Session.FetchOrReuse` says. |
| Client.UnimailClient.GetSessionKey | src/index.js:227-229 | Returns and leaves the state as `Session.GetSessionKey` says. |
| Client.UnimailClient.RunAction | src/index.js:308-319 | Returns and leaves the state as `Session.RunAction` says. |
| Client.UnimailClient.Round | src/index.js:261-275 | Settles, asks for a retry, and leaves the state as `Session.Round` says. |
| Client.UnimailClient.RetryingCall | src/index.js:261-276 | Returns and leaves the state as `Session.RetryingCall` says. |
| Client.UnimailClient.SingleCall | index.js:227-235 | Returns and leaves the state as `Session.SingleCall` says. |
| Client.UnimailClient.WithSessionKey | src/index.js:261-276 | Returns and leaves the state as `Session.WithSessionKey` says. |
| Client.UnimailClient.Request | src/index.js:306-322 | Returns and leaves the state as `Session.Request` says. |
| Client.TemplateResource.Index | src/index.js:95-100 | Returns and leaves the state as `Session.Request` of the index request says. |
| Client.TemplateResource.Render | src/index.js:102-108 | Returns and leaves the state as `Session.TemplatesRender` says. |
| Client.CreateClient | src/index.js:112-133 | `createClient` locates the config file and fails iff the cache settings fail, with the same error. Otherwise it gives a fresh, valid client whose cache namespace is the fingerprint of its credentials. `_config` is memoised iff a config file was found and one of the reads of `cache`, `tokenKey` and `tokenSecret` got as far as the configuration. |

## Left out

- Network I/O: axios becomes the `Server` function and the `Transport`
  class. Only the status and `data` of a response are modelled.
- File system mechanics: `fs.existsSync`, `mkdirp`, JSON writing and
  `require` become the `configFiles` map and the `StoreFile` object. The
  module cache of `require` (a re-read after a write sees the same object)
  is not modelled. Nor is the loss of `undefined` values when JSON is written.
- Client.CreateClient: the caller supplies the `StoreFile` for the cache.
  The model does not link it to the path `CacheConfig` resolves
  (`CachePlan.path`). Which file on disk the client reads and writes is
  left to that caller.
- The default config and cache paths (home directory, `XDG_CONFIG_HOME`,
  `UNIMAIL_CACHE_FILE`) and the write to `UNIMAIL_CONFIG_FILE` at load time
  are fixed constants.
- The environment is a parameter fixed when a client is created. A change
  to it afterwards is not modelled. Nor is a later change to `options` or
  to the config files.
- The verbose echo in `_request` (coloured method, URL, headers and body)
  is not modelled. Its `getBaseURL` call can only fail the same way as the
  one that follows it, which is modelled. The `colors` option and
  `stripAnsi` are left out; the latter's result is discarded anyway.
- `options.logger` becomes the `Logger` class with one kind of line per
  method (`error`, `warn`, `log`). In `Legacy` the same lines stand for
  `console.error`.
- The forwarding of `data.messages` refers to a name that is not bound. It
  is modelled by its only outcome: one warning per token response with
  non-empty messages. The `TypeError` raised for a non-array `messages`
  ends in the same warning.
- `index.js` uses `os` without requiring it, so it fails at load time. Its
  logic is modelled as written.
- `querystring.stringify`: values are not percent-encoded. Fields are taken
  in insertion order; JavaScript's ordering of integer-like keys first is
  not modelled.
- Numbers are integers. Doubles beyond 2^53, `NaN` and fractions are not
  modelled; `CacheStore.HashNumberBound` states how far the hash can grow.
- Configuration.SnakeCase: follows lodash's `snakeCase` for camelCase
  identifiers made of ASCII letters, which is every key the client reads.
  lodash also makes each run of digits a word of its own (`a1B` gives
  `a_1_b`, where the model gives `a1_b`). That, acronyms, punctuation and
  Unicode word splitting are not modelled.
- JsValues.Plus: `undefined` operands are excluded. Against a number, a
  boolean or null they give `NaN`; against a string, an array or an object
  they contribute the text `undefined`. The client only adds credentials
  that are required, so never `undefined`.
- JsValues.LowerAscii, JsValues.UpperAscii: map ASCII letters only. Unicode
  case mapping is left out.
- Requests.ReadQueryError: the message follows the wording of V8, which
  other engines phrase differently. The error's name `TypeError` is not kept.
- Session.RetryingCall: the source sets no bound on its retries. The model
  follows `fuel` rounds and reports `Diverged` when they run out.
  `Session.FuelMonotone` shows that more fuel never changes a settled
  result.
- Session.Round: a 401 from getting the key itself is not retried; it is
  classified by `getSessionKey` first. Only the callback's 401 is retried,
  as in the source.
- Configuration.BaseUrl: its contract does not give the whole URL, and it
  names only the `protocol` failure. The three base URL lemmas state each
  form, and `BaseUrlFailsLikeFirstRead` states the `host` and `port`
  failures.
- The session logic reads the override, the credentials, the base URL and
  `verbose` once per client (`Session.Resolved`). Because the sources are
  fixed, every read in the source gives that same value.
- `this.templates` is a separate `TemplateResource` object. The constructor
  does not create it.
- `Legacy` has no `request` and no template methods. Its
  `withSessionKey` callback is an `Action`, as for `Current`.
- The command-line programs (`cli.js`, `src/cli.js`) are not part of this
  model.
- Concurrency: calls run one after another. Nothing here models two calls
  interleaving.

=== FILE: cache_store.dfy ===
/**
 * `CacheManager`: a key/value store kept in one file and shared by every
 * credential pair, each pair reading and writing only its own namespace. The
 * namespace is a fingerprint: a 32-bit style string hash of `key + secret`,
 * rendered in hexadecimal. The file is a `StoreFile` object whose contents
 * are absent until the first write.
 */
module CacheStore {
  import opened JsValues

  /** The file's contents: fingerprint, then logical key, then value. */
  type Store = map<string, map<string, Value>>

  // ---------------------------------------------------------------------------
  // The fingerprint hash
  // ---------------------------------------------------------------------------

  /** One step of the hash loop, `((hash << 5) - hash) + char`: the shift
      works on the 32-bit view of `hash`, the subtraction and the addition on
      its unwrapped value. `unit` is a UTF-16 code unit, as `charCodeAt`
      gives. */
  function HashStep(h: int, unit: int): int {
    ShiftLeft5(h) - h + unit
  }

  /** The number the hash loop holds after folding every code unit of
      `units`. */
  function HashNumber(units: seq<int>): int
    decreases |units|
  {
    if units == [] then 0 else HashStep(HashNumber(units[..|units| - 1]), units[|units| - 1])
  }

  /** The namespace key derived from the hash input: the hexadecimal rendering
      of the folded hash of a string; a number (the sum of two numeric
      credentials) has no `length`, so the loop never runs and the key is `0`. */
  function FingerprintKey(input: Value): string
    requires input.Str? || input.Num?
  {
    if input.Num? then "0" else IntToRadix(HashNumber(CodeUnits(input.s)), 16)
  }

  /** `CacheManager.hash`. An empty string gives the number 0, a non-empty
      one the hexadecimal string of the hash folded over its UTF-16 code
      units; either way the object key it turns into is
      `FingerprintKey(input)`. */
  method Hash(input: Value) returns (r: Value)
    requires input.Str? || input.Num?
    ensures input == Str("") ==> r == Num(0)
    ensures input.Str? && input.s != "" ==> r == Str(IntToRadix(HashNumber(CodeUnits(input.s)), 16))
    ensures input.Num? ==> r == Str("0")
    ensures ToString(r) == FingerprintKey(input)
  {
    var hash := 0;
    if input.Num? {
      return Str(IntToRadix(hash, 16));
    }
    var s := CodeUnits(input.s);
    if |s| == 0 {
      return Num(hash);
    }
    var i := 0;
    while i < |s|
      invariant 0 <= i <= |s|
      invariant hash == HashNumber(s[..i])
    {
      assert s[..i + 1][..i] == s[..i];
      hash := ShiftLeft5(hash) - hash + s[i];
      i := i + 1;
    }
    assert s[..i] == s;
    return Str(IntToRadix(hash, 16));
  }

  /** The hash grows by less than 2^32 per code unit, so after `n` code
      units it stays within `n * 2^32` of zero: every value the loop computes
      is an integer that a double holds exactly while `n < 2^21`. */
  lemma {:induction false} HashNumberBound(s: seq<int>)
    requires forall i :: 0 <= i < |s| ==> 0 <= s[i] < 0x1_0000
    ensures -|s| * TwoTo32 <= HashNumber(s) <= |s| * TwoTo32
    decreases |s|
  {
    if s != [] {
      var init := s[..|s| - 1];
      HashNumberBound(init);
      assert (|s| - 1) * TwoTo32 + TwoTo32 == |s| * TwoTo32;
    }
  }

  /** Two inputs share a namespace exactly when their folded hashes agree:
      distinct hash values never collide in the store. */
  lemma FingerprintKeysAgree(a: string, b: string)
    ensures FingerprintKey(Str(a)) == FingerprintKey(Str(b)) <==> HashNumber(CodeUnits(a)) == HashNumber(CodeUnits(b))
  {
    IntToRadixInjective(HashNumber(CodeUnits(a)), HashNumber(CodeUnits(b)), 16);
  }

  /** The fingerprint sees only `key + secret`: ("ab", "c") and ("a", "bc")
      share a namespace. */
  lemma {:induction false} FingerprintSeesOnlyConcatenation(key1: string, secret1: string, key2: string, secret2: string)
    requires key1 + secret1 == key2 + secret2
    ensures FingerprintKey(Plus(Str(key1), Str(secret1))) == FingerprintKey(Plus(Str(key2), Str(secret2)))
  {
  }

  lemma SplitCredentialsCollide()
    ensures FingerprintKey(Plus(Str("ab"), Str("c"))) == FingerprintKey(Plus(Str("a"), Str("bc")))
  {
    assert "ab" + "c" == "a" + "bc";
    FingerprintSeesOnlyConcatenation("ab", "c", "a", "bc");
  }

  // ---------------------------------------------------------------------------
  // Reading and writing the store
  // ---------------------------------------------------------------------------

  /** What `get(key)` yields for namespace `fp`: `null` without a store file
      or without an entry for `fp`, otherwise the stored value (`undefined`
      for a key never written). */
  function Lookup(store: Option<Store>, fp: string, key: string): (v: Value)
    ensures store.None? || fp !in store.value ==> v == Null
    ensures store.Some? && fp in store.value && key in store.value[fp] ==> v == store.value[fp][key]
    ensures store.Some? && fp in store.value && key !in store.value[fp] ==> v == Undefined
  {
    match store
    case None => Null
    case Some(contents) =>
      if fp !in contents then Null
      else if key in contents[fp] then contents[fp][key]
      else Undefined
  }

  /** The store `set(key, value)` writes back for namespace `fp`: an absent
      file counts as `{}`; the namespace is created if missing, `key` gets
      `value`, and every other namespace and every other key is kept. */
  function Insert(store: Option<Store>, fp: string, key: string, value: Value): (r: Store)
    ensures fp in r && key in r[fp] && r[fp][key] == value
    ensures forall f :: f in r <==> f == fp || (store.Some? && f in store.value)
    ensures forall f :: f in r && f != fp ==> store.Some? && r[f] == store.value[f]
    ensures forall k :: k in r[fp] <==> k == key || (store.Some? && fp in store.value && k in store.value[fp])
    ensures forall k :: k in r[fp] && k != key ==> r[fp][k] == store.value[fp][k]
  {
    var contents := if store.Some? then store.value else map[];
    var namespace := if fp in contents then contents[fp] else map[];
    contents[fp := namespace[key := value]]
  }

  /** Reading back what was just written gives it back. */
  lemma LookupAfterInsert(store: Option<Store>, fp: string, key: string, value: Value)
    ensures Lookup(Some(Insert(store, fp, key, value)), fp, key) == value
  {
  }

  /** A write leaves every other namespace as it was, and every other key of
      its own namespace too, except that a key read before the namespace
      existed turns from `null` into `undefined` (both falsy). */
  lemma LookupFrame(store: Option<Store>, fp: string, key: string, value: Value, fp': string, key': string)
    requires fp' != fp || key' != key
    ensures var after := Lookup(Some(Insert(store, fp, key, value)), fp', key');
            var before := Lookup(store, fp', key');
            (fp' != fp ==> after == before) &&
            (fp' == fp && store.Some? && fp in store.value ==> after == before) &&
            (fp' == fp && (store.None? || fp !in store.value) ==> before == Null && after == Undefined)
  {
  }

  // ---------------------------------------------------------------------------
  // The file and the manager
  // ---------------------------------------------------------------------------

  /** The cache file: `None` while it does not exist. */
  class StoreFile {
    var contents: Option<Store>

    constructor (contents: Option<Store>)
      ensures this.contents == contents
    {
      this.contents := contents;
    }
  }

  class CacheManager {
    const file: StoreFile
    /** `this.key`: the property key the hash result turns into. */
    const fingerprint: string

    constructor (file: StoreFile, key: Value, secret: Value)
      requires !key.Undefined? && !secret.Undefined?
      ensures this.file == file
      ensures fingerprint == FingerprintKey(Plus(key, secret))
    {
      var h := Hash(Plus(key, secret));
      this.file := file;
      this.fingerprint := ToString(h);
    }

    /** `get(key)`: reads the file without changing it. */
    method Get(key: string) returns (v: Value)
      ensures v == Lookup(file.contents, fingerprint, key)
    {
      if file.contents.None? {
        return Null;
      }
      var contents := file.contents.value;
      if fingerprint !in contents {
        return Null;
      }
      var namespace := contents[fingerprint];
      v := if key in namespace then namespace[key] else Undefined;
    }

    /** `set(key, value)`: creates an empty store if there is none, then
        rewrites the whole store with `value` under `key` in this namespace. */
    method Set(key: string, value: Value)
      modifies file
      ensures file.contents == Some(Insert(old(file.contents), fingerprint, key, value))
    {
      if file.contents.None? {
        file.contents := Some(map[]);
      }
      var current := file.contents.value;
      var namespace := if fingerprint in current then current[fingerprint] else map[];
      namespace := namespace[key := value];
      current := current[fingerprint := namespace];
      file.contents := Some(current);
    }
  }
}

=== FILE: client.dfy ===
/**
 * The client as the program has it: a `UnimailClient` object whose methods
 * read its settings, keep `_sessionKey` and the memoised `_config` in its
 * fields, write to the cache file, hand requests to the transport and write
 * to the logger. Each method is proved against the `Configuration` or
 * `Session` function it implements: it returns what that function returns
 * and leaves the client in the state the function describes.
 */
module Client {
  import opened JsValues
  import opened Configuration
  import opened CacheStore
  import opened ErrorHandling
  import opened Requests
  import Session

  /** The HTTP transport: answers each request by its number, and keeps the
      requests it was handed, in order. */
  class Transport {
    const respond: Session.Server
    var sent: seq<HttpRequest>

    constructor (respond: Session.Server)
      ensures this.respond == respond && sent == []
    {
      this.respond := respond;
      sent := [];
    }

    method Send(req: HttpRequest) returns (o: Outcome)
      modifies this
      ensures sent == old(sent) + [req]
      ensures o == respond(|old(sent)|, req)
    {
      o := respond(|sent|, req);
      sent := sent + [req];
    }
  }

  /** The client's logger: the lines written to it, in order. */
  class Logger {
    var lines: seq<LogLine>

    constructor ()
      ensures lines == []
    {
      lines := [];
    }

    method Write(line: LogLine)
      modifies this
      ensures lines == old(lines) + [line]
    {
      lines := lines + [line];
    }
  }

  class UnimailClient {
    const variant: Variant
    const options: Settings
    /** The process environment. */
    const env: map<string, string>
    /** The config files on disk, with what loading each yields. */
    const configFiles: ConfigFiles
    const configFileName: Option<string>
    const cache: Option<CacheManager>
    const transport: Transport
    const logger: Logger
    /** `_config`: the merged configuration, once it has been read. */
    var memo: Option<Settings>
    /** `_sessionKey`. */
    var sessionKey: Value
    /** What the session logic reads from this client's settings. */
    ghost const setup: Session.ClientSetup

    /** The located config file was loaded, and `setup` holds what reading
        this client's settings gives. */
    ghost predicate Linked() {
      (configFileName.Some? ==> configFileName.value in configFiles) &&
      Session.Reads(setup, variant, Src()) && setup.cache == Namespace()
    }

    /** Besides, `_config` only ever holds the merge of the located file. */
    ghost predicate Valid()
      reads this
    {
      Linked() && (memo.Some? ==> configFileName.Some? && memo.value == ResolvedConfig(variant, configFileName, configFiles))
    }

    lemma OverrideRead()
      requires Linked()
      ensures setup.settings.override == Configuration.GetConfigValue(Src(), "sessionKey", false).value
    {
      var src := Src();
      assert setup.settings.override == Configuration.GetConfigValue(src, "sessionKey", false).value;
    }

    lemma CredentialsRead()
      requires Linked()
      ensures setup.settings.credentials == Session.Credentials(Src())
    {
      var src := Src();
      assert setup.settings.credentials == Session.Credentials(src);
    }

    lemma BaseUrlRead()
      requires Linked()
      ensures setup.settings.baseUrl == BaseUrl(variant, Src())
    {
      var src := Src();
      assert setup.settings.baseUrl == BaseUrl(variant, src);
    }

    /** The cache's namespace in the cache file, when there is a cache. */
    function Namespace(): Option<string> {
      if cache.Some? then Some(cache.value.fingerprint) else None
    }

    /** The cache file, when there is a cache. */
    ghost function Files(): set<object> {
      if cache.Some? then {cache.value.file} else {}
    }

    /** What `getConfigValue` consults. */
    ghost function Src(): Sources
      requires configFileName.Some? ==> configFileName.value in configFiles
    {
      Sources(options, env, ResolvedConfig(variant, configFileName, configFiles), configFileName)
    }

    /** The part of the world the session logic changes. */
    ghost function State(): Session.Snapshot
      reads this, transport, logger, Files()
    {
      Session.Snapshot(sessionKey, if cache.Some? then cache.value.file.contents else None, transport.sent, logger.lines)
    }

    constructor (variant: Variant, options: Settings, env: map<string, string>, configFiles: ConfigFiles,
                 configFileName: Option<string>, cache: Option<CacheManager>, transport: Transport, logger: Logger,
                 ghost setup: Session.ClientSetup)
      requires configFileName.Some? ==> configFileName.value in configFiles
      requires Session.Reads(setup, variant, Sources(options, env, ResolvedConfig(variant, configFileName, configFiles), configFileName))
      requires setup.cache == if cache.Some? then Some(cache.value.fingerprint) else None
      ensures this.variant == variant && this.options == options && this.env == env
      ensures this.configFiles == configFiles && this.configFileName == configFileName
      ensures this.cache == cache && this.transport == transport && this.logger == logger
      ensures memo == None && sessionKey == Undefined && this.setup == setup && Valid()
    {
      this.variant := variant;
      this.options := options;
      this.env := env;
      this.configFiles := configFiles;
      this.configFileName := configFileName;
      this.cache := cache;
      this.transport := transport;
      this.logger := logger;
      memo := None;
      sessionKey := Undefined;
      this.setup := setup;
    }

    /** The `config` getter: the memoised merge when a config file was found
        (loaded on first use), the defaults otherwise. */
    method Config() returns (c: Settings)
      requires Valid()
      modifies this
      ensures Valid() && sessionKey == old(sessionKey)
      ensures c == Src().config
      ensures memo == if configFileName.Some? then Some(c) else old(memo)
    {
      if memo.Some? {
        return memo.value;
      }
      if configFileName.Some? {
        c := Merge(DefaultConfig(variant), configFiles[configFileName.value]);
        memo := Some(c);
        return;
      }
      return DefaultConfig(variant);
    }

    /** `getConfigValue(key, {required})`; the configuration is only read
        when neither the option nor the environment variable is truthy, and
        only then is `_config` memoised. */
    method GetConfigValue(key: string, required: bool) returns (r: Result<Value, JsError>)
      requires Valid()
      modifies this
      ensures Valid() && sessionKey == old(sessionKey)
      ensures r == Configuration.GetConfigValue(Src(), key, required)
      ensures memo == if configFileName.Some? && ReadsConfig(Src(), key) then Some(Src().config) else old(memo)
    {
      var envKey := EnvKey(key);
      var value := Or(Setting(options, key), EnvValue(env, envKey));
      if !Truthy(value) {
        var config := Config();
        value := Setting(config, key);
      }
      assert value == Or(Or(Setting(options, key), EnvValue(env, envKey)), Setting(Src().config, key));
      if !Truthy(value) && required {
        return Err(NewError(MissingValueMessage(key, envKey, configFileName)));
      }
      return Ok(value);
    }

    /** `getBaseURL()`: what `BaseUrl` gives for this client's settings. */
    method GetBaseUrl() returns (r: Result<string, JsError>)
      requires Valid()
      modifies this
      ensures Valid() && sessionKey == old(sessionKey)
      ensures r == setup.settings.baseUrl
    {
      ghost var src := Src();
      var protocol := GetConfigValue("protocol", true);
      if protocol.Err? {
        r := Err(protocol.error);
      } else {
        var host := GetConfigValue("host", true);
        if host.Err? {
          r := Err(host.error);
        } else {
          r := WithPort(ToString(protocol.value) + "://" + ToString(host.value));
        }
      }
      assert r == BaseUrl(variant, src);
      BaseUrlRead();
    }

    /** The port segment of `getBaseURL()`: a required one in `Legacy`, and
        in `Current` one only when the port is truthy. */
    method WithPort(withoutPort: string) returns (r: Result<string, JsError>)
      requires Valid()
      modifies this
      ensures Valid() && sessionKey == old(sessionKey)
      ensures r == Configuration.WithPort(variant, Src(), withoutPort)
    {
      match variant
      case Current =>
        var port := GetConfigValue("port", false);
        r := if Truthy(port.value) then Ok(withoutPort + ":" + ToString(port.value)) else Ok(withoutPort);
      case Legacy =>
        var port := GetConfigValue("port", true);
        r := if port.Err? then Err(port.error) else Ok(withoutPort + ":" + ToString(port.value));
    }

    /** `{key: getConfigValue('tokenKey'), secret: getConfigValue('tokenSecret')}`:
        what `Session.Credentials` gives for this client's settings. */
    method Credentials() returns (r: Result<Value, JsError>)
      requires Valid()
      modifies this
      ensures Valid() && sessionKey == old(sessionKey)
      ensures r == setup.settings.credentials
    {
      var key := GetConfigValue("tokenKey", true);
      if key.Err? {
        r := Err(key.error);
      } else {
        var secret := GetConfigValue("tokenSecret", true);
        if secret.Err? {
          r := Err(secret.error);
        } else {
          r := Ok(Obj([("key", key.value), ("secret", secret.value)]));
        }
      }
      assert r == Session.Credentials(Src());
      CredentialsRead();
    }

    /** `_catchCommonErrors` once `fn` has failed with `e`: writes what the
        classification logs and returns what it throws. */
    method CatchCommonErrors(e: JsError, gerund: string) returns (thrown: JsError)
      requires Valid()
      modifies this, logger
      ensures Valid() && sessionKey == old(sessionKey)
      ensures var h := ErrorHandling.CatchCommonErrors(e, gerund, setup.settings.baseUrl);
              thrown == h.thrown && logger.lines == old(logger.lines) + Session.Logged(h.log)
    {
      if e.status == Some(401) {
        return NewError(InvalidCredentialsMessage);
      }
      if e.code == Some("ENOTFOUND") || e.code == Some("ECONNREFUSED") {
        var url := GetBaseUrl();
        if url.Err? {
          return url.error;
        }
        var message := if e.code == Some("ENOTFOUND") then HostNotFoundMessage(url.value) else ConnectionRefusedMessage(url.value);
        return NewError(message);
      }
      var context := Context(gerund);
      if HasServerError(e) {
        return NewError(ServerErrorMessage(context, e.response.value.status, Prop(e.response.value.data, "error")));
      }
      logger.Write(ErrorText(UnknownErrorMessage(context)));
      return e;
    }

    /** `_request(spec with headers)`: shapes the request and hands it to
        the transport; reading the base URL can fail first. */
    method RawRequest(spec: RequestSpec, headers: Value) returns (r: Result<Outcome, JsError>)
      requires Valid()
      modifies this, transport
      ensures Valid() && sessionKey == old(sessionKey)
      ensures setup.settings.baseUrl.Err? ==> r == Err(setup.settings.baseUrl.error) && transport.sent == old(transport.sent)
      ensures setup.settings.baseUrl.Ok? ==>
                var req := ShapeRequest(spec, headers, setup.settings.baseUrl.value);
                r == Ok(transport.respond(|old(transport.sent)|, req)) && transport.sent == old(transport.sent) + [req]
    {
      var url := GetBaseUrl();
      if url.Err? {
        return Err(url.error);
      }
      var outcome := transport.Send(ShapeRequest(spec, headers, url.value));
      return Ok(outcome);
    }

    /** What a response carrying a truthy `data.sessionToken` changes: the
        key is kept, `Current` forwards `data.messages` (through a name that
        is not bound, so every message ends in the warning), and the key is
        written to the cache. */
    method AdoptToken(data: Value)
      requires Valid()
      modifies this, logger, Files()
      ensures Valid() && memo == old(memo)
      ensures State() == Session.AdoptToken(setup, old(State()), data)
    {
      if Truthy(data) && Truthy(Prop(data, "sessionToken")) {
        sessionKey := Prop(data, "sessionToken");
        var messages := Prop(data, "messages");
        if variant == Current && Truthy(messages) && messages != Arr([]) {
          logger.Write(Warning(Session.SwallowedMessage(messages)));
        }
        if cache.Some? {
          cache.value.Set(Session.SessionKeyEntry, sessionKey);
        }
      }
    }

    /** The fetch step of `_getSessionKey`. */
    method Authenticate() returns (failure: Option<JsError>)
      requires Valid()
      modifies this, transport, logger, Files()
      ensures Valid()
      ensures (failure, State()) == Session.Authenticate(setup, transport.respond, old(State()))
    {
      var body := Credentials();
      if body.Err? {
        return Some(body.error);
      }
      var outcome := RawRequest(RequestSpec("post", body.value, Session.SessionsEndpoint, Undefined), Undefined);
      if outcome.Err? {
        return Some(outcome.error);
      }
      match outcome.value
      case Failed(e) =>
        return Some(e);
      case Responded(response) =>
        AdoptToken(response.data);
        return None;
    }

    /** `_getSessionKey(force)`. */
    method AcquireSessionKey(force: bool) returns (r: Result<Value, JsError>)
      requires Valid()
      modifies this, transport, logger, Files()
      ensures Valid()
      ensures Session.Acquired(r, State()) == Session.AcquireSessionKey(setup, transport.respond, old(State()), force)
    {
      OverrideRead();
      var override := GetConfigValue("sessionKey", false);
      if Truthy(override.value) {
        RequiredReadAgrees(Src(), "sessionKey");
        r := GetConfigValue("sessionKey", true);
        return;
      }
      if !force && !Truthy(sessionKey) && cache.Some? {
        var cached := cache.value.Get(Session.SessionKeyEntry);
        if Truthy(cached) {
          return Ok(cached);
        }
      }
      r := FetchOrReuse(force);
    }

    /** `_getSessionKey(force)` past the override and the cache. */
    method FetchOrReuse(force: bool) returns (r: Result<Value, JsError>)
      requires Valid()
      modifies this, transport, logger, Files()
      ensures Valid()
      ensures Session.Acquired(r, State()) == Session.FetchOrReuse(setup, transport.respond, old(State()), force)
    {
      if !Truthy(sessionKey) || force {
        var failure := Authenticate();
        if failure.Some? {
          return Err(failure.value);
        }
      }
      if Truthy(sessionKey) {
        return Ok(sessionKey);
      }
      return Err(NewError(Session.NoSessionTokenMessage));
    }

    /** `getSessionKey(force)`. */
    method GetSessionKey(force: bool) returns (r: Result<Value, JsError>)
      requires Valid()
      modifies this, transport, logger, Files()
      ensures Valid()
      ensures Session.Acquired(r, State()) == Session.GetSessionKey(setup, transport.respond, old(State()), force)
    {
      r := AcquireSessionKey(force);
      if r.Err? {
        var thrown := CatchCommonErrors(r.error, "getting a session key");
        r := Err(thrown);
      }
    }

    /** `fn(sessionKey)`: a computation on the key, or `request`'s closure,
        which sends the request with the key as its `session` header and
        unwraps the response. */
    method RunAction(action: Session.Action, key: Value) returns (r: Result<Value, JsError>)
      requires Valid()
      modifies this, transport
      ensures Valid() && sessionKey == old(sessionKey)
      ensures Session.Acquired(r, State()) == Session.RunAction(setup, transport.respond, old(State()), action, key)
    {
      match action
      case Compute(f) =>
        r := f(key);
      case SendRequest(spec) =>
        var outcome := RawRequest(spec, Session.SessionHeader(key));
        if outcome.Err? {
          return Err(outcome.error);
        }
        match outcome.value
        case Responded(response) =>
          r := Ok(Unwrap(response));
        case Failed(e) =>
          r := Err(e);
    }

    /** One round of `withSessionKey(fn, force)` in `Current`. */
    method Round(action: Session.Action, force: bool) returns (c: Session.CallResult, retry: bool)
      requires Valid()
      modifies this, transport, logger, Files()
      ensures Valid()
      ensures (Session.Called(c, State()), retry) == Session.Round(setup, transport.respond, old(State()), action, force)
    {
      retry := false;
      var key := GetSessionKey(force);
      if key.Err? {
        return Session.Threw(key.error), false;
      }
      var r := RunAction(action, key.value);
      if r.Ok? {
        return Session.Returned(r.value), false;
      }
      if !Session.Unauthorized(r.error) {
        return Session.Threw(r.error), false;
      }
      ghost var failed := State();
      if Truthy(Setting(options, "verbose")) {
        logger.Write(Info(Session.SessionExpiredNotice));
      }
      assert Session.Verbose(setup) == Truthy(Setting(options, "verbose"));
      assert State() == failed.(log := failed.log + if Session.Verbose(setup) then [Info(Session.SessionExpiredNotice)] else []);
      return Session.Threw(r.error), true;
    }

    /** `withSessionKey(fn, force)` in `Current`: a 401 failure of `fn`
        starts over with a forced refresh of the key. The source sets no
        bound on the rounds; `fuel` is how many this call may take. */
    method RetryingCall(action: Session.Action, force: bool, fuel: nat) returns (c: Session.CallResult)
      requires Valid()
      modifies this, transport, logger, Files()
      ensures Valid()
      ensures Session.Called(c, State()) == Session.RetryingCall(setup, transport.respond, old(State()), action, force, fuel)
      decreases fuel
    {
      if fuel == 0 {
        return Session.Diverged;
      }
      var retry;
      c, retry := Round(action, force);
      if retry {
        c := RetryingCall(action, true, fuel - 1);
      }
    }

    /** `withSessionKey(fn)` in `Legacy`: one attempt; a failure of `fn` is
        classified with no action named, logged as an object and rethrown. */
    method SingleCall(action: Session.Action) returns (c: Session.CallResult)
      requires Valid()
      modifies this, transport, logger, Files()
      ensures Valid()
      ensures Session.Called(c, State()) == Session.SingleCall(setup, transport.respond, old(State()), action)
    {
      var key := GetSessionKey(false);
      if key.Err? {
        return Session.Threw(key.error);
      }
      var r := RunAction(action, key.value);
      if r.Ok? {
        return Session.Returned(r.value);
      }
      var thrown := CatchCommonErrors(r.error, "");
      logger.Write(ErrorObject(thrown));
      return Session.Threw(thrown);
    }

    /** `withSessionKey` of this client's variant. */
    method WithSessionKey(action: Session.Action, force: bool, fuel: nat) returns (c: Session.CallResult)
      requires Valid()
      modifies this, transport, logger, Files()
      ensures Valid()
      ensures Session.Called(c, State()) == Session.WithSessionKey(setup, transport.respond, old(State()), action, force, fuel)
    {
      if variant == Current {
        c := RetryingCall(action, force, fuel);
      } else {
        c := SingleCall(action);
      }
    }

    /** `request(spec)` (`Current` only). */
    method Request(spec: RequestSpec, fuel: nat) returns (c: Session.CallResult)
      requires Valid() && variant == Current
      modifies this, transport, logger, Files()
      ensures Valid()
      ensures Session.Called(c, State()) == Session.Request(setup, transport.respond, old(State()), spec, fuel)
    {
      c := RetryingCall(Session.SendRequest(spec), false, fuel);
      if c.Threw? {
        var thrown := CatchCommonErrors(c.error, "");
        c := Session.Threw(thrown);
      }
    }
  }

  /** `client.templates`. */
  class TemplateResource {
    const client: UnimailClient

    constructor (client: UnimailClient)
      ensures this.client == client
    {
      this.client := client;
    }

    /** `templates.index()`. */
    method Index(fuel: nat) returns (c: Session.CallResult)
      requires client.Valid() && client.variant == Current
      modifies client, client.transport, client.logger, client.Files()
      ensures client.Valid()
      ensures Session.Called(c, client.State()) ==
              Session.Request(client.setup, client.transport.respond, old(client.State()), IndexSpec(), fuel)
    {
      c := client.Request(IndexSpec(), fuel);
    }

    /** `templates.render(templateID, options)`. */
    method Render(templateId: Value, options: Value, fuel: nat) returns (c: Session.CallResult)
      requires client.Valid() && client.variant == Current
      modifies client, client.transport, client.logger, client.Files()
      ensures client.Valid()
      ensures Session.Called(c, client.State()) ==
              Session.TemplatesRender(client.setup, client.transport.respond, old(client.State()), templateId, options, fuel)
    {
      var spec := RenderSpec(templateId, options);
      if spec.Err? {
        return Session.Threw(spec.error);
      }
      c := client.Request(spec.value, fuel);
    }
  }

  /** `createClient(options)`: locates the config file among `configFiles`,
      then resolves the cache as the constructor does, which can fail. The
      cache, when there is one, lives in `cacheFile`. The constructor's reads
      leave `_config` memoised when a config file was found and one of them
      got as far as the configuration. */
  method CreateClient(variant: Variant, options: Settings, env: map<string, string>, configFiles: ConfigFiles,
                      cacheFile: StoreFile, transport: Transport, logger: Logger)
    returns (r: Result<UnimailClient, JsError>)
    ensures var name := ChooseConfigFile(ConfigFileBase(options), configFiles.Keys);
            var src := Sources(options, env, ResolvedConfig(variant, name, configFiles), name);
            var plan := CacheConfig(src);
            (r.Err? <==> plan.Err?) && (r.Err? ==> r.error == plan.error) &&
            (r.Ok? ==> fresh(r.value) && r.value.Valid() && r.value.Src() == src &&
                       Session.Reads(r.value.setup, variant, src) && r.value.setup.cache == r.value.Namespace() &&
                       r.value.memo == (if name.Some? && (ReadsConfig(src, "cache") || ReadsConfig(src, "tokenKey") ||
                                                          ReadsConfig(src, "tokenSecret"))
                                        then Some(src.config) else None) &&
                       r.value.sessionKey == Undefined &&
                       r.value.transport == transport && r.value.logger == logger &&
                       (plan.value.Some? <==> r.value.cache.Some?) &&
                       (plan.value.Some? ==> r.value.cache.value.file == cacheFile &&
                                             r.value.cache.value.fingerprint ==
                                               FingerprintKey(Plus(plan.value.value.key, plan.value.value.secret))))
  {
    var name := ChooseConfigFile(ConfigFileBase(options), configFiles.Keys);
    var src := Sources(options, env, ResolvedConfig(variant, name, configFiles), name);
    match CacheConfig(src)
    case Err(e) =>
      return Err(e);
    case Ok(plan) =>
      var cache: Option<CacheManager> := None;
      if plan.Some? {
        var manager := new CacheManager(cacheFile, plan.value.key, plan.value.secret);
        cache := Some(manager);
      }
      ghost var setup := Session.MakeSetup(variant, src, if cache.Some? then Some(cache.value.fingerprint) else None);
      var client := new UnimailClient(variant, options, env, configFiles, name, cache, transport, logger, setup);
      // the constructor's reads, made through the getter: they give what the
      // plan was made of, and memoise `_config` as they do in the source
      var cacheRead := client.GetConfigValue("cache", true);
      var keyRead := client.GetConfigValue("tokenKey", true);
      var secretRead := client.GetConfigValue("tokenSecret", true);
      assert plan == Some(CachePlan(ToString(cacheRead.value), keyRead.value, secretRead.value));
      return Ok(client);
  }
}

=== FILE: configuration.dfy ===
/**
 * Configuration resolution of `UnimailClient`: which config file is used,
 * how it is merged over the defaults, the precedence of `getConfigValue`
 * (option, then `UNIMAIL_<KEY>` environment variable, then configuration),
 * its missing-value error, the base URL, and what the constructor resolves
 * for the cache.
 *
 * Two variants of the client share this logic: `Current` (src/index.js) and
 * `Legacy` (index.js), which defaults `port` to 80 and always puts it in the
 * base URL.
 */
module Configuration {
  import opened JsValues

  datatype Variant = Current | Legacy

  const ErrorPrelude: string := "unimail API Error:"
  const SupportEmail: string := "support@unimail.co"
  const UptimeMonitor: string := "uptime.unimail.co"

  /** The default config file base, `$XDG_CONFIG_HOME/unimail/config` (with
      `~/.config` when the variable is unset), fixed once at load time. */
  const DefaultConfigFileBase: string := "~/.config/unimail/config"
  /** The default cache file, `$XDG_CONFIG_HOME/unimail/cache.json`, unless
      `UNIMAIL_CACHE_FILE` names another one at load time. */
  const DefaultCacheFile: string := "~/.config/unimail/cache.json"

  /** A configuration object: setting name to value. */
  type Settings = map<string, Value>

  /** The config files that exist, by path, with what loading each yields. */
  type ConfigFiles = map<string, Settings>

  /** `defaultConfig`. */
  function DefaultConfig(variant: Variant): (d: Settings)
    ensures Setting(d, "host") == Str("api.unimail.co") && Setting(d, "protocol") == Str("https")
    ensures Setting(d, "cache") == Str(DefaultCacheFile)
    ensures Setting(d, "port") == if variant == Legacy then Num(80) else Undefined
  {
    var common := map["host" := Str("api.unimail.co"), "protocol" := Str("https"), "cache" := Str(DefaultCacheFile)];
    if variant == Legacy then common["port" := Num(80)] else common
  }

  /** `settings[key]`, `undefined` when absent. */
  function Setting(settings: Settings, key: string): Value {
    if key in settings then settings[key] else Undefined
  }

  // ---------------------------------------------------------------------------
  // Choosing and loading the config file
  // ---------------------------------------------------------------------------

  /** `options.configFile || defaultConfigFileBase`. */
  function ConfigFileBase(options: Settings): string {
    var given := Setting(options, "configFile");
    if Truthy(given) then ToString(given) else DefaultConfigFileBase
  }

  /** The paths tried, in order: the bare path, then `.json`, then `.js`. */
  function Candidates(base: string): seq<string> {
    [base, base + ".json", base + ".js"]
  }

  /** The config file used: the first candidate that exists, if any. */
  function ChooseConfigFile(base: string, existing: set<string>): (r: Option<string>)
    ensures r.None? <==> forall i :: 0 <= i < 3 ==> Candidates(base)[i] !in existing
    ensures r.Some? ==> exists i :: 0 <= i < 3 && Candidates(base)[i] == r.value && r.value in existing &&
                                    forall j :: 0 <= j < i ==> Candidates(base)[j] !in existing
  {
    var c := Candidates(base);
    if c[0] in existing then Some(c[0])
    else if c[1] in existing then Some(c[1])
    else if c[2] in existing then Some(c[2])
    else None
  }

  /** `assignInAll([defaults, file])`: the file's values override the defaults. */
  function Merge(defaults: Settings, file: Settings): (r: Settings)
    ensures r.Keys == defaults.Keys + file.Keys
    ensures forall k :: k in file ==> r[k] == file[k]
    ensures forall k :: k in defaults && k !in file ==> r[k] == defaults[k]
  {
    defaults + file
  }

  /** The object the `config` getter returns: the merge when a config file
      was found, the bare defaults otherwise. */
  function ResolvedConfig(variant: Variant, fileName: Option<string>, files: ConfigFiles): (c: Settings)
    requires fileName.Some? ==> fileName.value in files
    ensures fileName.None? ==> c == DefaultConfig(variant)
    ensures fileName.Some? ==> forall k :: k in files[fileName.value] ==> k in c && c[k] == files[fileName.value][k]
    ensures forall k :: k in DefaultConfig(variant) && (fileName.None? || k !in files[fileName.value]) ==>
                          k in c && c[k] == DefaultConfig(variant)[k]
  {
    if fileName.Some? then Merge(DefaultConfig(variant), files[fileName.value]) else DefaultConfig(variant)
  }

  // ---------------------------------------------------------------------------
  // Environment variable names
  // ---------------------------------------------------------------------------

  predicate IsLowerOrDigit(c: char) {
    'a' <= c <= 'z' || '0' <= c <= '9'
  }

  /** `s` without its underscores. */
  function WithoutUnderscores(s: string): (r: string)
    ensures '_' !in r && |r| <= |s|
  {
    if s == [] then [] else (if s[0] == '_' then [] else [s[0]]) + WithoutUnderscores(s[1..])
  }

  lemma {:induction false} WithoutUnderscoresAppend(a: string, b: string)
    ensures WithoutUnderscores(a + b) == WithoutUnderscores(a) + WithoutUnderscores(b)
  {
    if a == [] {
      assert a + b == b;
    } else {
      assert (a + b)[0] == a[0] && (a + b)[1..] == a[1..] + b;
      WithoutUnderscoresAppend(a[1..], b);
    }
  }

  /** Whether the character before what follows `done` ends a word: the
      last character of `done`, or `afterWord` when `done` is empty. */
  function EndsWord(done: string, afterWord: bool): bool {
    if done == [] then afterWord else IsLowerOrDigit(done[|done| - 1])
  }

  /** `snakeCase` on a camelCase identifier: an underscore before each
      upper-case letter that follows a lower-case letter or a digit, and all
      letters in lower case. `afterWord` says whether the character before
      `key` was a lower-case letter or a digit. */
  function SnakeCase(key: string, afterWord: bool): string {
    if key == [] then [] else SnakePiece(key[0], afterWord) + SnakeCase(key[1..], IsLowerOrDigit(key[0]))
  }

  /** What one character of the key becomes. */
  function SnakePiece(c: char, afterWord: bool): string {
    if afterWord && 'A' <= c <= 'Z' then ['_', LowerChar(c)] else [LowerChar(c)]
  }

  /** `snakeCase` only inserts underscores and lowers letters: the result
      has no upper-case letter, and without its underscores it is the key
      (without its own) in lower case. */
  lemma {:induction false} SnakeCaseOnlyInsertsUnderscores(key: string, afterWord: bool)
    ensures var r := SnakeCase(key, afterWord);
            (forall i :: 0 <= i < |r| ==> !('A' <= r[i] <= 'Z')) &&
            WithoutUnderscores(r) == LowerAscii(WithoutUnderscores(key))
  {
    if key != [] {
      var head, rest := SnakePiece(key[0], afterWord), SnakeCase(key[1..], IsLowerOrDigit(key[0]));
      var kept := if key[0] == '_' then [] else [key[0]];
      SnakeCaseOnlyInsertsUnderscores(key[1..], IsLowerOrDigit(key[0]));
      SnakePieceLowers(key[0], afterWord);
      NoUpperAppend(head, rest);
      WithoutUnderscoresAppend(head, rest);
      assert WithoutUnderscores(key) == kept + WithoutUnderscores(key[1..]);
      LowerAsciiAppend(kept, WithoutUnderscores(key[1..]));
    }
  }

  lemma SnakePieceLowers(c: char, afterWord: bool)
    ensures var p := SnakePiece(c, afterWord);
            (forall i :: 0 <= i < |p| ==> !('A' <= p[i] <= 'Z')) &&
            WithoutUnderscores(p) == LowerAscii(if c == '_' then [] else [c])
  {
    var p := SnakePiece(c, afterWord);
    assert WithoutUnderscores([LowerChar(c)]) == if c == '_' then [] else [LowerChar(c)];
    if |p| == 2 {
      assert WithoutUnderscores(p) == WithoutUnderscores([LowerChar(c)]);
    }
  }

  lemma NoUpperAppend(a: string, b: string)
    requires forall i :: 0 <= i < |a| ==> !('A' <= a[i] <= 'Z')
    requires forall i :: 0 <= i < |b| ==> !('A' <= b[i] <= 'Z')
    ensures forall i :: 0 <= i < |a + b| ==> !('A' <= (a + b)[i] <= 'Z')
  {
    forall i | 0 <= i < |a + b| ensures !('A' <= (a + b)[i] <= 'Z') {
      if i >= |a| {
        assert (a + b)[i] == b[i - |a|];
      }
    }
  }

  /** `snakeCase` works character by character: the part of the key before
      a split maps on its own, and the part after it as if it followed the
      first. */
  lemma {:induction false} SnakeCaseAppend(a: string, b: string, afterWord: bool)
    ensures SnakeCase(a + b, afterWord) == SnakeCase(a, afterWord) + SnakeCase(b, EndsWord(a, afterWord))
  {
    if a == [] {
      assert a + b == b;
    } else {
      var piece, next := SnakePiece(a[0], afterWord), IsLowerOrDigit(a[0]);
      var ends := EndsWord(a[1..], next);
      assert ends == EndsWord(a, afterWord);
      assert (a + b)[0] == a[0] && (a + b)[1..] == a[1..] + b;
      calc {
        SnakeCase(a + b, afterWord);
        piece + SnakeCase(a[1..] + b, next);
        { SnakeCaseAppend(a[1..], b, next); }
        piece + (SnakeCase(a[1..], next) + SnakeCase(b, ends));
        (piece + SnakeCase(a[1..], next)) + SnakeCase(b, ends);
        SnakeCase(a, afterWord) + SnakeCase(b, ends);
      }
    }
  }

  /** Where the underscores go: the character at `i` maps to its lower-case
      form, preceded by `_` exactly when it is an upper-case letter that
      follows a lower-case letter or a digit. */
  lemma SnakeCaseAt(key: string, afterWord: bool, i: nat)
    requires i < |key|
    ensures SnakeCase(key, afterWord) ==
            SnakeCase(key[..i], afterWord) +
            (if EndsWord(key[..i], afterWord) && 'A' <= key[i] <= 'Z' then "_" else "") + [LowerChar(key[i])] +
            SnakeCase(key[i + 1..], IsLowerOrDigit(key[i]))
  {
    assert key == key[..i] + key[i..];
    SnakeCaseAppend(key[..i], key[i..], afterWord);
    assert key[i..][0] == key[i] && key[i..][1..] == key[i + 1..];
  }

  /** `` `UNIMAIL_${snakeCase(key)}`.toUpperCase() ``. */
  function EnvKey(key: string): string {
    UpperAscii("UNIMAIL_" + SnakeCase(key, false))
  }

  /** Every environment variable consulted carries the `UNIMAIL_` prefix. */
  lemma EnvKeyPrefix(key: string)
    ensures StartsWith(EnvKey(key), "UNIMAIL_")
  {
    assert EnvKey(key)[..8] == "UNIMAIL_";
  }

  lemma SnakeCaseOfKey()
    ensures SnakeCase("Key", true) == "_key"
  {
    assert SnakeCase("y", true) == "y";
    assert SnakeCase("ey", true) == "ey";
  }

  lemma SnakeCaseOfTokenKey()
    ensures SnakeCase("tokenKey", false) == "token_key"
  {
    SnakeCaseOfKey();
    assert SnakeCase("nKey", true) == "n_key";
    assert SnakeCase("enKey", true) == "en_key";
    assert SnakeCase("kenKey", true) == "ken_key";
    assert SnakeCase("okenKey", true) == "oken_key";
  }

  /** The credential key is read from `UNIMAIL_TOKEN_KEY`. */
  lemma EnvKeyOfTokenKey()
    ensures EnvKey("tokenKey") == "UNIMAIL_TOKEN_KEY"
  {
    SnakeCaseOfTokenKey();
    var u := UpperAscii("UNIMAIL_token_key");
    forall i | 0 <= i < |u| ensures u[i] == "UNIMAIL_TOKEN_KEY"[i] {}
  }

  // ---------------------------------------------------------------------------
  // getConfigValue
  // ---------------------------------------------------------------------------

  /** Everything `getConfigValue` consults: the client's options, the process
      environment, the resolved configuration and the located config file. */
  datatype Sources = Sources(
    options: Settings,
    env: map<string, string>,
    config: Settings,
    configFileName: Option<string>)

  function EnvValue(env: map<string, string>, name: string): Value {
    if name in env then Str(env[name]) else Undefined
  }

  function FromOption(src: Sources, key: string): Value { Setting(src.options, key) }
  function FromEnv(src: Sources, key: string): Value { EnvValue(src.env, EnvKey(key)) }
  function FromConfig(src: Sources, key: string): Value { Setting(src.config, key) }

  function Backticked(s: string): string { "`" + s + "`" }
  function Quoted(s: string): string { "\"" + s + "\"" }

  /** Where the missing-value error says the config file is. */
  function ConfigFileLocation(configFileName: Option<string>): string {
    if configFileName.Some? && configFileName.value != "" then "(currently located at " + configFileName.value + ")"
    else "(not created; defaults to " + (DefaultConfigFileBase + ".js") + " or " + (DefaultConfigFileBase + ".json") + ")"
  }

  /** The text of the error thrown for a missing required value. */
  function MissingValueMessage(key: string, envKey: string, configFileName: Option<string>): string {
    // written in short pieces, which the verifier handles more cheaply
    ErrorPrelude + (" Missing required " + "configuration value " + "for key ") + Backticked(key) +
    (("\nSpecify by:\n  - Passing ") + Quoted(key) +
     (" as a key in a config " + "object when creating " + "the client\n  - " + "Setting the ") +
     Quoted(envKey) +
     ((" environment variable" + "\n  - Exporting " + "the variable ") + Backticked(key) +
      (" from the unimail " + "config file ") +
      ConfigFileLocation(configFileName)))
  }

  /** `getConfigValue(key, {required})`: the first truthy of the option, the
      environment variable and the configuration; when none is truthy, an
      error if the value is required, the (falsy) configuration value if not. */
  function GetConfigValue(src: Sources, key: string, required: bool): (r: Result<Value, JsError>)
    ensures Truthy(FromOption(src, key)) ==> r == Ok(FromOption(src, key))
    ensures !Truthy(FromOption(src, key)) && Truthy(FromEnv(src, key)) ==> r == Ok(FromEnv(src, key))
    ensures !Truthy(FromOption(src, key)) && !Truthy(FromEnv(src, key)) && Truthy(FromConfig(src, key)) ==>
              r == Ok(FromConfig(src, key))
    ensures r.Err? <==> required && !Truthy(FromOption(src, key)) && !Truthy(FromEnv(src, key)) && !Truthy(FromConfig(src, key))
    ensures r.Err? ==> r.error == NewError(MissingValueMessage(key, EnvKey(key), src.configFileName)) && Plain(r.error)
    ensures r.Ok? && !Truthy(r.value) ==> !required && r.value == FromConfig(src, key)
  {
    var envKey := EnvKey(key);
    var value := Or(Or(Setting(src.options, key), EnvValue(src.env, envKey)), Setting(src.config, key));
    if !Truthy(value) && required then Err(NewError(MissingValueMessage(key, envKey, src.configFileName)))
    else Ok(value)
  }

  /** Whether `getConfigValue(key)` gets as far as the configuration: `||`
      stops at a truthy option or environment variable. */
  predicate ReadsConfig(src: Sources, key: string) {
    !Truthy(FromOption(src, key)) && !Truthy(FromEnv(src, key))
  }

  /** When the optional read of a key gives a truthy value, the required
      read gives the same value: `_getSessionKey` tests the one and returns
      the other. */
  lemma RequiredReadAgrees(src: Sources, key: string)
    ensures Truthy(GetConfigValue(src, key, false).value) ==> GetConfigValue(src, key, true) == GetConfigValue(src, key, false)
  {
  }

  /** The missing-value error starts with the client's prelude and names the
      key and its environment variable. */
  lemma MissingValueMessageNamesKey(key: string, envKey: string, configFileName: Option<string>)
    ensures var m := MissingValueMessage(key, envKey, configFileName);
            StartsWith(m, ErrorPrelude) && Contains(m, Backticked(key)) && Contains(m, Quoted(envKey))
  {
    var head := ErrorPrelude + (" Missing required " + "configuration value " + "for key ");
    var middle := ("\nSpecify by:\n  - Passing ") + Quoted(key) +
                  (" as a key in a config " + "object when creating " + "the client\n  - " + "Setting the ");
    var tail := (" environment variable" + "\n  - Exporting " + "the variable ") + Backticked(key) +
                (" from the unimail " + "config file ") + ConfigFileLocation(configFileName);
    var rest := middle + Quoted(envKey) + tail;
    ContainsMiddle(head, Backticked(key), rest);
    ContainsMiddle(middle, Quoted(envKey), tail);
    ContainsAfter(head + Backticked(key), rest, Quoted(envKey));
    StartsWithConcat(ErrorPrelude, (" Missing required " + "configuration value " + "for key "));
    StartsWithBefore(head, ErrorPrelude, Backticked(key));
    StartsWithBefore(head + Backticked(key), ErrorPrelude, rest);
  }

  /** The missing-value error names the config file it looked at, or both
      default file names when there was none. */
  lemma MissingValueMessageNamesConfigFile(key: string, envKey: string, configFileName: Option<string>)
    requires configFileName.Some? ==> configFileName.value != ""
    ensures var m := MissingValueMessage(key, envKey, configFileName);
            (configFileName.Some? ==> Contains(m, configFileName.value)) &&
            (configFileName.None? ==> Contains(m, DefaultConfigFileBase + ".js") && Contains(m, DefaultConfigFileBase + ".json"))
  {
    var location := ConfigFileLocation(configFileName);
    var head := ErrorPrelude + (" Missing required " + "configuration value " + "for key ") + Backticked(key) +
      (("\nSpecify by:\n  - Passing ") + Quoted(key) +
       (" as a key in a config " + "object when creating " + "the client\n  - " + "Setting the ") +
       Quoted(envKey) +
       ((" environment variable" + "\n  - Exporting " + "the variable ") + Backticked(key) +
        (" from the unimail " + "config file ")));
    assert MissingValueMessage(key, envKey, configFileName) == head + location;
    if configFileName.Some? {
      ContainsMiddle("(currently located at ", configFileName.value, ")");
      ContainsAfter(head, location, configFileName.value);
    } else {
      var js, json := DefaultConfigFileBase + ".js", DefaultConfigFileBase + ".json";
      ContainsMiddle("(not created; defaults to ", js, " or " + json + ")");
      assert location == "(not created; defaults to " + js + (" or " + json + ")");
      ContainsMiddle("(not created; defaults to " + js + " or ", json, ")");
      ContainsAfter(head, location, js);
      ContainsAfter(head, location, json);
    }
  }

  /** A falsy option does not switch a setting off: the read falls through
      to the environment and the configuration. */
  lemma FalsyOptionFallsThrough(src: Sources, key: string)
    requires !Truthy(FromOption(src, key)) && EnvKey(key) !in src.env
    ensures GetConfigValue(src, key, true) ==
            if Truthy(FromConfig(src, key)) then Ok(FromConfig(src, key))
            else Err(NewError(MissingValueMessage(key, EnvKey(key), src.configFileName)))
  {
    assert FromEnv(src, key) == Undefined;
  }

  /** So `cache: false` passed to the client still leaves the default cache
      file in use. */
  lemma CacheFalseKeepsDefault(variant: Variant, options: Settings, env: map<string, string>)
    requires options == map["cache" := Bool(false)]
    requires EnvKey("cache") !in env
    ensures GetConfigValue(Sources(options, env, DefaultConfig(variant), None), "cache", true) == Ok(Str(DefaultCacheFile))
  {
    FalsyOptionFallsThrough(Sources(options, env, DefaultConfig(variant), None), "cache");
  }

  // ---------------------------------------------------------------------------
  // The base URL
  // ---------------------------------------------------------------------------

  /** `getBaseURL()`: `protocol://host`, then `:port` -- in `Current` only
      when a truthy port is configured, in `Legacy` always, the port being a
      required value there. Fails like the first missing value it reads. */
  function BaseUrl(variant: Variant, src: Sources): (r: Result<string, JsError>)
    ensures GetConfigValue(src, "protocol", true).Err? ==> r == Err(GetConfigValue(src, "protocol", true).error)
    ensures r.Ok? ==> GetConfigValue(src, "protocol", true).Ok? && GetConfigValue(src, "host", true).Ok?
    ensures r.Err? ==> Plain(r.error)
  {
    match GetConfigValue(src, "protocol", true)
    case Err(e) => Err(e)
    case Ok(protocol) =>
      match GetConfigValue(src, "host", true)
      case Err(e) => Err(e)
      case Ok(host) =>
        WithPort(variant, src, ToString(protocol) + "://" + ToString(host))
  }

  /** `getBaseURL()` reads `protocol`, then `host`, then (in `Legacy`, as a
      required value) `port`, and fails with the error of the first read that
      fails. */
  lemma BaseUrlFailsLikeFirstRead(variant: Variant, src: Sources)
    ensures GetConfigValue(src, "protocol", true).Err? ==>
              BaseUrl(variant, src) == Err(GetConfigValue(src, "protocol", true).error)
    ensures GetConfigValue(src, "protocol", true).Ok? && GetConfigValue(src, "host", true).Err? ==>
              BaseUrl(variant, src) == Err(GetConfigValue(src, "host", true).error)
    ensures variant == Legacy && GetConfigValue(src, "protocol", true).Ok? && GetConfigValue(src, "host", true).Ok? &&
            GetConfigValue(src, "port", true).Err? ==>
              BaseUrl(variant, src) == Err(GetConfigValue(src, "port", true).error)
    ensures variant == Current && GetConfigValue(src, "protocol", true).Ok? && GetConfigValue(src, "host", true).Ok? ==>
              BaseUrl(variant, src).Ok?
  {
  }

  /** The port segment of the base URL: `Legacy` requires a port; `Current`
      appends one only when it is truthy. */
  function WithPort(variant: Variant, src: Sources, withoutPort: string): (r: Result<string, JsError>)
    ensures r.Err? ==> Plain(r.error)
  {
    match variant
    case Current =>
      var port := GetConfigValue(src, "port", false).value;
      if Truthy(port) then Ok(withoutPort + ":" + ToString(port)) else Ok(withoutPort)
    case Legacy =>
      match GetConfigValue(src, "port", true)
      case Err(e) => Err(e)
      case Ok(port) => Ok(withoutPort + ":" + ToString(port))
  }

  /** In `Current`, an unset (or falsy) port leaves no port segment at all:
      no `:undefined` and no default port. */
  lemma BaseUrlWithoutPort(src: Sources)
    requires GetConfigValue(src, "protocol", true).Ok? && GetConfigValue(src, "host", true).Ok?
    requires !Truthy(GetConfigValue(src, "port", false).value)
    ensures BaseUrl(Current, src) == Ok(ToString(GetConfigValue(src, "protocol", true).value) + "://" +
                                        ToString(GetConfigValue(src, "host", true).value))
  {
  }

  /** In `Current`, a truthy port is appended after a colon. */
  lemma BaseUrlWithPort(src: Sources)
    requires GetConfigValue(src, "protocol", true).Ok? && GetConfigValue(src, "host", true).Ok?
    requires Truthy(GetConfigValue(src, "port", false).value)
    ensures BaseUrl(Current, src) == Ok(ToString(GetConfigValue(src, "protocol", true).value) + "://" +
                                        ToString(GetConfigValue(src, "host", true).value) + ":" +
                                        ToString(GetConfigValue(src, "port", false).value))
  {
  }

  /** `Legacy` always has the form `protocol://host:port`, and fails when no
      truthy port is configured. */
  lemma LegacyBaseUrlHasPort(src: Sources)
    ensures BaseUrl(Legacy, src).Ok? ==>
              GetConfigValue(src, "port", true).Ok? &&
              BaseUrl(Legacy, src).value == ToString(GetConfigValue(src, "protocol", true).value) + "://" +
                                            ToString(GetConfigValue(src, "host", true).value) + ":" +
                                            ToString(GetConfigValue(src, "port", true).value)
    ensures GetConfigValue(src, "protocol", true).Ok? && GetConfigValue(src, "host", true).Ok? &&
            !Truthy(FromOption(src, "port")) && !Truthy(FromEnv(src, "port")) && !Truthy(FromConfig(src, "port")) ==>
              BaseUrl(Legacy, src).Err?
  {
  }

  /** With no options and no environment, a configuration holding `host`
      and `protocol` but no port gives `protocol://host`, e.g.
      `https://api.example.com`. */
  lemma BaseUrlFromHostAndProtocol(src: Sources, host: string, protocol: string)
    requires src.options == map[] && src.env == map[]
    requires FromConfig(src, "protocol") == Str(protocol) && FromConfig(src, "host") == Str(host)
    requires FromConfig(src, "port") == Undefined
    requires host != "" && protocol != ""
    ensures BaseUrl(Current, src) == Ok(protocol + "://" + host)
  {
    assert Truthy(FromConfig(src, "protocol")) && Truthy(FromConfig(src, "host"));
    ReadFromConfig(src, "protocol", true);
    ReadFromConfig(src, "host", true);
    ReadFromConfig(src, "port", false);
    BaseUrlWithoutPort(src);
  }

  /** With no options and no environment, a read that succeeds gives the
      configuration's value. */
  lemma ReadFromConfig(src: Sources, key: string, required: bool)
    requires src.options == map[] && src.env == map[]
    ensures Truthy(FromConfig(src, key)) || !required ==> GetConfigValue(src, key, required) == Ok(FromConfig(src, key))
  {
  }

  // ---------------------------------------------------------------------------
  // What the constructor resolves for the cache
  // ---------------------------------------------------------------------------

  /** The cache the constructor sets up: its file and the credential pair. */
  datatype CachePlan = CachePlan(path: string, key: Value, secret: Value)

  /** The constructor's `getConfigValue('cache')` (required), then, if truthy,
      `tokenKey` and `tokenSecret` (required) for the `CacheManager`. It
      fails like the first of the three reads that fails. */
  function CacheConfig(src: Sources): (r: Result<Option<CachePlan>, JsError>)
    ensures r.Ok? && r.value.Some? ==> Truthy(r.value.value.key) && Truthy(r.value.value.secret)
    ensures GetConfigValue(src, "cache", true).Err? ==> r == Err(GetConfigValue(src, "cache", true).error)
    ensures GetConfigValue(src, "cache", true).Ok? && GetConfigValue(src, "tokenKey", true).Err? ==>
              r == Err(GetConfigValue(src, "tokenKey", true).error)
    ensures GetConfigValue(src, "cache", true).Ok? && GetConfigValue(src, "tokenKey", true).Ok? &&
            GetConfigValue(src, "tokenSecret", true).Err? ==>
              r == Err(GetConfigValue(src, "tokenSecret", true).error)
    ensures r.Ok? ==> r.value == Some(CachePlan(ToString(GetConfigValue(src, "cache", true).value),
                                                GetConfigValue(src, "tokenKey", true).value,
                                                GetConfigValue(src, "tokenSecret", true).value))
  {
    match GetConfigValue(src, "cache", true)
    case Err(e) => Err(e)
    case Ok(cacheFile) =>
      // a required read that succeeds is truthy, so this branch, like the
      // source's `if (cacheFile)`, is never taken
      if !Truthy(cacheFile) then Ok(None)
      else
        match GetConfigValue(src, "tokenKey", true)
        case Err(e) => Err(e)
        case Ok(key) =>
          match GetConfigValue(src, "tokenSecret", true)
          case Err(e) => Err(e)
          case Ok(secret) => Ok(Some(CachePlan(ToString(cacheFile), key, secret)))
  }

  /** The `cache` setting is required, so a client that could be constructed
      always has a cache, and with it both credentials: there is no way to
      run without a cache file. */
  lemma ConstructedClientHasCache(src: Sources)
    ensures CacheConfig(src).Ok? ==> CacheConfig(src).value.Some?
    ensures CacheConfig(src).Ok? ==> GetConfigValue(src, "tokenKey", true).Ok? && GetConfigValue(src, "tokenSecret", true).Ok?
  {
  }
}

=== FILE: error_handling.dfy ===
/**
 * `_catchCommonErrors`: turns a failure into one of a fixed set of
 * user-facing errors, checked in this order -- a 401 status, an unresolvable
 * host, a refused connection, a structured server error -- and otherwise logs
 * a support notice and rethrows the original unchanged.
 */
module ErrorHandling {
  import opened JsValues
  import opened Configuration

  /** A line written to the client's logger (`options.logger` in `Current`,
      `console` in `Legacy`), by level. */
  datatype LogLine =
    | ErrorText(text: string)       // `logger.error(text)`
    | ErrorObject(error: JsError)   // `console.error(e)`
    | Warning(text: string)         // `logger.warn(text)`
    | Info(text: string)            // `logger.log(text)`

  /** What the handler throws, and what it logs on the way. */
  datatype Handled = Handled(thrown: JsError, log: Option<LogLine>)

  // The long texts below are written as concatenations of short pieces:
  // the verifier handles a chain of short literals far more cheaply than
  // one long one.

  const InvalidCredentialsMessage: string := ErrorPrelude + (" Provided API Key " + "and Secret are invalid.")

  const HostNotFoundTail: string :=
    (" did not resolve. " + "Check your internet " + "connection and DNS " +
     "settings and check " + "the URL. If everything " + "seems in order, " + "check ") +
    UptimeMonitor + ". If " + UptimeMonitor +
    (" is not responding " + "and your internet " + "seems to be working " +
     "fine, please report " + "this incident to ") +
    SupportEmail + (". Thank you for " + "your patience.")

  function HostNotFoundMessage(baseUrl: string): string {
    ErrorPrelude + " " + baseUrl + HostNotFoundTail
  }

  const ConnectionRefusedHead: string :=
    (" Connection refused " + "by server. Check " + "your internet connection." +
     "\nIf your connection " + "is fine, the unimail " + "API could be down. " + "Check ") +
    UptimeMonitor +
    (" for status reports." + "\nThis could also " + "be a configuration " +
     "issue on the client " + "end. The API URL " + "you're using is ")

  function ConnectionRefusedMessage(baseUrl: string): string {
    ErrorPrelude + ConnectionRefusedHead + baseUrl
  }

  /** `` actionGerund ? ` while ${actionGerund}` : '' `` */
  function Context(gerund: string): string {
    if gerund != "" then " while " + gerund else ""
  }

  function ServerErrorMessage(context: string, status: int, error: Value): string {
    ErrorPrelude + (if context != "" then context + "," else "") + ServerSays(status, error)
  }

  function ServerSays(status: int, error: Value): string {
    " server responded with " + Decimal(status) + (". Server says " + Quoted(ToString(error)) + ".")
  }

  const UnknownErrorTail: string :=
    (". The unimail API " + "client endeavors " + "to handle all exceptions " +
     "gracefully and with " + "a sane explanation, " + "but we were unable " +
     "to do so in this " + "case. Please report " + "this incident to ") +
    SupportEmail + (" so we can resolve " + "this issue. Thank " + "you for your patience.")

  function UnknownErrorMessage(context: string): string {
    ErrorPrelude + " Unknown exception emerged" + context + UnknownErrorTail
  }

  /** `e.response.data.error`, when it is truthy. */
  predicate HasServerError(e: JsError) {
    e.response.Some? && Truthy(e.response.value.data) && Truthy(Prop(e.response.value.data, "error"))
  }

  /** An error none of the four rules recognises. */
  predicate Unrecognised(e: JsError) {
    e.status != Some(401) && e.code != Some("ENOTFOUND") && e.code != Some("ECONNREFUSED") && !HasServerError(e)
  }

  /** The classification of a failure `e` of an action described by `gerund`
      (`""` for none). `baseUrl` is what `getBaseURL()` gives at that point;
      when that itself fails, its error is what escapes. */
  function CatchCommonErrors(e: JsError, gerund: string, baseUrl: Result<string, JsError>): (h: Handled)
    // 1. a 401 status wins over everything else
    ensures e.status == Some(401) ==> h == Handled(NewError(InvalidCredentialsMessage), None)
    // 2, 3. an unresolvable host or a refused connection names the base URL
    ensures e.status != Some(401) && (e.code == Some("ENOTFOUND") || e.code == Some("ECONNREFUSED")) ==>
              h.log.None? && (baseUrl.Ok? ==> Plain(h.thrown) && Contains(h.thrown.message, baseUrl.value)) &&
              (baseUrl.Err? ==> h.thrown == baseUrl.error)
    // 4. a server error names the status and the server's message, and the action when there is one
    ensures e.status != Some(401) && e.code != Some("ENOTFOUND") && e.code != Some("ECONNREFUSED") && HasServerError(e) ==>
              h.log.None? && Plain(h.thrown) &&
              Contains(h.thrown.message, Quoted(ToString(Prop(e.response.value.data, "error")))) &&
              Contains(h.thrown.message, " server responded with " + Decimal(e.response.value.status)) &&
              (gerund != "" ==> Contains(h.thrown.message, " while " + gerund))
    // 5. anything else is logged and rethrown unchanged
    ensures Unrecognised(e) <==> h.log.Some?
    ensures Unrecognised(e) ==> h == Handled(e, Some(ErrorText(UnknownErrorMessage(Context(gerund)))))
    // whatever is not rethrown is a plain error starting with the prelude
    ensures !Unrecognised(e) && (baseUrl.Err? ==> StartsWith(baseUrl.error.message, ErrorPrelude)) ==>
              StartsWith(h.thrown.message, ErrorPrelude)
  {
    if e.status == Some(401) then
      StartsWithConcat(ErrorPrelude, (" Provided API Key " + "and Secret are invalid."));
      Handled(NewError(InvalidCredentialsMessage), None)
    else if e.code == Some("ENOTFOUND") || e.code == Some("ECONNREFUSED") then
      match baseUrl
      case Err(configError) => Handled(configError, None)
      case Ok(url) =>
        var message := if e.code == Some("ENOTFOUND") then HostNotFoundMessage(url) else ConnectionRefusedMessage(url);
        NamesBaseUrl(e.code == Some("ENOTFOUND"), url);
        Handled(NewError(message), None)
    else
      var context := Context(gerund);
      if HasServerError(e) then
        var error := Prop(e.response.value.data, "error");
        ServerErrorMessageNames(context, e.response.value.status, error);
        ServerErrorMessageNamesAction(gerund, e.response.value.status, error);
        Handled(NewError(ServerErrorMessage(context, e.response.value.status, error)), None)
      else
        Handled(e, Some(ErrorText(UnknownErrorMessage(context))))
  }

  lemma NamesBaseUrl(hostNotFound: bool, url: string)
    ensures var m := if hostNotFound then HostNotFoundMessage(url) else ConnectionRefusedMessage(url);
            StartsWith(m, ErrorPrelude) && Contains(m, url)
  {
    var tail := HostNotFoundTail;
    var head := ConnectionRefusedHead;
    if hostNotFound {
      ContainsMiddle(ErrorPrelude + " ", url, tail);
      StartsWithConcat(ErrorPrelude, " ");
      StartsWithBefore(ErrorPrelude + " ", ErrorPrelude, url);
      StartsWithBefore(ErrorPrelude + " " + url, ErrorPrelude, tail);
    } else {
      ContainsMiddle(ErrorPrelude + head, url, "");
      assert ErrorPrelude + head + url + "" == ErrorPrelude + head + url;
      StartsWithConcat(ErrorPrelude, head);
      StartsWithBefore(ErrorPrelude + head, ErrorPrelude, url);
    }
  }

  lemma ServerErrorMessageNames(context: string, status: int, error: Value)
    ensures var m := ServerErrorMessage(context, status, error);
            StartsWith(m, ErrorPrelude) &&
            Contains(m, Quoted(ToString(error))) &&
            Contains(m, " server responded with " + Decimal(status))
  {
    var withContext := if context != "" then context + "," else "";
    var says := ServerSays(status, error);
    ServerSaysNames(status, error);
    ContainsAfter(ErrorPrelude + withContext, says, Quoted(ToString(error)));
    ContainsAfter(ErrorPrelude + withContext, says, " server responded with " + Decimal(status));
    StartsWithConcat(ErrorPrelude, withContext);
    StartsWithBefore(ErrorPrelude + withContext, ErrorPrelude, says);
  }

  lemma ServerErrorMessageNamesAction(gerund: string, status: int, error: Value)
    ensures gerund != "" ==> Contains(ServerErrorMessage(Context(gerund), status, error), " while " + gerund)
  {
    if gerund != "" {
      ContextBeforeComma(ErrorPrelude, " while " + gerund, ServerSays(status, error));
    }
  }

  /** The context, followed by a comma, shows in the message. */
  lemma ContextBeforeComma(prelude: string, context: string, says: string)
    ensures Contains(prelude + (context + ",") + says, context)
  {
    ContainsMiddle(prelude, context, "," + says);
    assert prelude + (context + ",") + says == prelude + context + ("," + says);
  }

  lemma ServerSaysNames(status: int, error: Value)
    ensures Contains(ServerSays(status, error), Quoted(ToString(error)))
    ensures Contains(ServerSays(status, error), " server responded with " + Decimal(status))
  {
    SaysBoth(" server responded with " + Decimal(status), Quoted(ToString(error)));
  }

  /** `said` followed by `. Server says <quoted>.` contains both parts. */
  lemma SaysBoth(said: string, quoted: string)
    ensures Contains(said + (". Server says " + quoted + "."), quoted)
    ensures Contains(said + (". Server says " + quoted + "."), said)
  {
    var tail := ". Server says " + quoted + ".";
    ContainsMiddle(". Server says ", quoted, ".");
    ContainsAfter(said, tail, quoted);
    ContainsMiddle("", said, tail);
    assert "" + said + tail == said + tail;
  }

  /** Handling twice changes nothing more: the first handler's result is
      either a plain error (which the second one logs and rethrows as it is)
      or the original unrecognised error (rethrown again). This is why the
      errors `request` passes through two handlers come out unchanged. */
  lemma HandlingTwiceRethrows(e: JsError, gerund: string, gerund2: string, baseUrl: Result<string, JsError>)
    requires baseUrl.Err? ==> Plain(baseUrl.error)
    ensures var first := CatchCommonErrors(e, gerund, baseUrl).thrown;
            CatchCommonErrors(first, gerund2, baseUrl).thrown == first
  {
    var first := CatchCommonErrors(e, gerund, baseUrl).thrown;
    if !Unrecognised(e) {
      assert Plain(first);
      assert Unrecognised(first);
    }
  }

  /** An error the client built itself (no status, code or response) is
      never reclassified: it is logged as unknown and rethrown unchanged. */
  lemma PlainErrorsAreRethrown(e: JsError, gerund: string, baseUrl: Result<string, JsError>)
    requires Plain(e)
    ensures CatchCommonErrors(e, gerund, baseUrl) == Handled(e, Some(ErrorText(UnknownErrorMessage(Context(gerund)))))
  {
  }
}

=== FILE: js_values.dfy ===
/**
 * The JavaScript values the unimail client handles (options, configuration
 * files, the cache store, HTTP payloads, thrown errors) and the few built-in
 * conversions it relies on: truthiness, `||`, string conversion in template
 * literals, `+`, `Number.prototype.toString(radix)`, the 32-bit view taken
 * by `<<`, and ASCII case mapping.
 */
module JsValues {

  datatype Option<+T> = None | Some(value: T)

  datatype Result<+T, +E> = Ok(value: T) | Err(error: E)

  /** A JavaScript value. Numbers are integers; object fields keep their
      insertion order, as JavaScript objects with string keys do. */
  datatype Value =
    | Undefined
    | Null
    | Bool(b: bool)
    | Num(n: int)
    | Str(s: string)
    | Arr(items: seq<Value>)
    | Obj(fields: seq<(string, Value)>)

  /** JavaScript's ToBoolean. */
  predicate Truthy(v: Value) {
    match v
    case Undefined => false
    case Null => false
    case Bool(b) => b
    case Num(n) => n != 0
    case Str(s) => s != ""
    case Arr(_) => true
    case Obj(_) => true
  }

  /** `a || b`: the first operand when it is truthy, otherwise the second. */
  function Or(a: Value, b: Value): (r: Value)
    ensures Truthy(r) <==> Truthy(a) || Truthy(b)
    ensures Truthy(a) ==> r == a
    ensures !Truthy(a) ==> r == b
  {
    if Truthy(a) then a else b
  }

  /** The value of field `key` among `fields` (`undefined` when absent). */
  function Field(fields: seq<(string, Value)>, key: string): Value
  {
    if fields == [] then Undefined
    else if fields[0].0 == key then fields[0].1
    else Field(fields[1..], key)
  }

  predicate HasField(fields: seq<(string, Value)>, key: string) {
    exists i :: 0 <= i < |fields| && fields[i].0 == key
  }

  /** Property access `v.key`; only objects have the properties modelled here. */
  function Prop(v: Value, key: string): Value {
    match v
    case Obj(fields) => Field(fields, key)
    case _ => Undefined
  }

  // ---------------------------------------------------------------------------
  // Number.prototype.toString(radix) on integers, and its inverse
  // ---------------------------------------------------------------------------

  type Radix = r: int | 2 <= r <= 16 witness 10

  /** The digit for `d`: `0`-`9`, then lower-case `a`-`f`. */
  function DigitChar(d: nat): (c: char)
    requires d < 16
    ensures c != '-'
  {
    if d < 10 then ('0' as int + d) as char else ('a' as int + d - 10) as char
  }

  /** The value of a lower-case digit character, if it is one below `radix`. */
  function DigitValue(c: char, radix: Radix): (r: Option<nat>)
    ensures r.Some? ==> r.value < radix
  {
    if '0' <= c <= '9' && (c as int - '0' as int) < radix then Some(c as int - '0' as int)
    else if 'a' <= c <= 'f' && (c as int - 'a' as int) + 10 < radix then Some(c as int - 'a' as int + 10)
    else None
  }

  function NatToRadix(n: nat, radix: Radix): (s: string)
    ensures |s| > 0 && '-' !in s
    decreases n
  {
    if n < radix then [DigitChar(n)]
    else NatToRadix(n / radix, radix) + [DigitChar(n % radix)]
  }

  /** `n.toString(radix)` for an integer `n`: a leading `-` for negatives. */
  function IntToRadix(n: int, radix: Radix): string {
    if n < 0 then "-" + NatToRadix(-n, radix) else NatToRadix(n, radix)
  }

  /** Reads back a non-empty string of digits. */
  function ParseNat(s: string, radix: Radix): Option<nat>
    decreases |s|
  {
    if s == [] then None
    else if |s| == 1 then DigitValue(s[0], radix)
    else
      match ParseNat(s[..|s| - 1], radix)
      case None => None
      case Some(high) =>
        match DigitValue(s[|s| - 1], radix)
        case None => None
        case Some(low) => Some(high * radix + low)
  }

  function ParseInt(s: string, radix: Radix): Option<int> {
    if |s| > 0 && s[0] == '-' then
      match ParseNat(s[1..], radix)
      case None => None
      case Some(m) => Some(-(m as int))
    else
      match ParseNat(s, radix)
      case None => None
      case Some(m) => Some(m)
  }

  lemma DigitRoundTrip(d: nat, radix: Radix)
    requires d < radix
    ensures DigitValue(DigitChar(d), radix) == Some(d)
  {
  }

  lemma ParseNatSnoc(high: string, d: nat, radix: Radix)
    requires |high| > 0 && d < radix
    requires ParseNat(high, radix).Some?
    ensures ParseNat(high + [DigitChar(d)], radix) == Some(ParseNat(high, radix).value * radix + d)
  {
    var s := high + [DigitChar(d)];
    assert s[..|s| - 1] == high;
    DigitRoundTrip(d, radix);
  }

  /** Dividing by the radix gives a smaller quotient and loses nothing. */
  lemma DivMod(n: nat, radix: Radix)
    requires n >= radix
    ensures n / radix < n && (n / radix) * radix + n % radix == n
  {
    assert (n / radix) * radix >= (n / radix) * 2;
  }

  lemma {:induction false} ParseNatToRadix(n: nat, radix: Radix)
    ensures ParseNat(NatToRadix(n, radix), radix) == Some(n)
    decreases n
  {
    if n < radix {
      DigitRoundTrip(n, radix);
    } else {
      var q, d := n / radix, n % radix;
      DivMod(n, radix);
      ParseNatToRadix(q, radix);
      ParseNatSnoc(NatToRadix(q, radix), d, radix);
    }
  }

  /** Rendering an integer in a radix loses nothing: it can be read back. */
  lemma IntToRadixRoundTrip(n: int, radix: Radix)
    ensures ParseInt(IntToRadix(n, radix), radix) == Some(n)
  {
    if n < 0 {
      ParseNatToRadix(-n, radix);
      var s := "-" + NatToRadix(-n, radix);
      assert s[1..] == NatToRadix(-n, radix);
    } else {
      ParseNatToRadix(n, radix);
    }
  }

  /** Distinct integers have distinct renderings. */
  lemma IntToRadixInjective(a: int, b: int, radix: Radix)
    ensures IntToRadix(a, radix) == IntToRadix(b, radix) <==> a == b
  {
    IntToRadixRoundTrip(a, radix);
    IntToRadixRoundTrip(b, radix);
  }

  // ---------------------------------------------------------------------------
  // Conversions
  // ---------------------------------------------------------------------------

  /** The decimal rendering JavaScript gives an integral number. */
  function Decimal(n: int): string {
    IntToRadix(n, 10)
  }

  function Join(parts: seq<string>, separator: string): string {
    if parts == [] then ""
    else if |parts| == 1 then parts[0]
    else parts[0] + separator + Join(parts[1..], separator)
  }

  /** String conversion as done by a template literal `${v}`. */
  function ToString(v: Value): string {
    match v
    case Undefined => "undefined"
    case Null => "null"
    case Bool(b) => if b then "true" else "false"
    case Num(n) => Decimal(n)
    case Str(s) => s
    case Arr(items) =>
      // Array.prototype.toString: elements joined by commas, nullish ones empty
      Join(seq(|items|, i requires 0 <= i < |items| =>
        if items[i].Undefined? || items[i].Null? then "" else ToString(items[i])), ",")
    case Obj(_) => "[object Object]"
  }

  /** ToNumber of a non-string primitive. */
  function ToNumber(v: Value): int
    requires v.Null? || v.Bool? || v.Num?
  {
    match v
    case Null => 0
    case Bool(b) => if b then 1 else 0
    case Num(n) => n
  }

  /** The binary `+` operator: concatenation as soon as either operand turns
      into a string (strings, arrays and objects do), numeric addition
      otherwise. `undefined` operands are excluded: against a number, a
      boolean or null they give NaN, and against a string, an array or an
      object they contribute the text `undefined`. */
  function Plus(a: Value, b: Value): (r: Value)
    requires !a.Undefined? && !b.Undefined?
    ensures r.Str? <==> a.Str? || a.Arr? || a.Obj? || b.Str? || b.Arr? || b.Obj?
    ensures r.Str? ==> r.s == ToString(a) + ToString(b)
    ensures r.Num? ==> r.n == ToNumber(a) + ToNumber(b)
    ensures a.Str? && b.Str? ==> r == Str(a.s + b.s)
  {
    if a.Str? || a.Arr? || a.Obj? || b.Str? || b.Arr? || b.Obj? then Str(ToString(a) + ToString(b))
    else Num(ToNumber(a) + ToNumber(b))
  }

  const TwoTo31: int := 0x8000_0000
  const TwoTo32: int := 0x1_0000_0000

  /** ToInt32: the signed 32-bit integer congruent to `x` modulo 2^32. */
  function ToInt32(x: int): (r: int)
    ensures -TwoTo31 <= r < TwoTo31
    ensures (x - r) % TwoTo32 == 0
  {
    var q, m := x / TwoTo32, x % TwoTo32;
    assert x == TwoTo32 * q + m;
    if m >= TwoTo31 then
      assert x - (m - TwoTo32) == TwoTo32 * (q + 1);
      m - TwoTo32
    else
      assert x - m == TwoTo32 * q;
      m
  }

  /** `x << 5`: the 32-bit view of `x`, shifted, read back as a 32-bit integer. */
  function ShiftLeft5(x: int): (r: int)
    ensures -TwoTo31 <= r < TwoTo31
    ensures (r - 32 * x) % TwoTo32 == 0
  {
    var w := ToInt32(x);
    var k := (x - w) / TwoTo32;
    assert x - w == TwoTo32 * k;
    var r := ToInt32(32 * w);
    var j := (32 * w - r) / TwoTo32;
    assert 32 * w - r == TwoTo32 * j;
    assert r - 32 * x == TwoTo32 * (-32 * k - j);
    r
  }

  // ---------------------------------------------------------------------------
  // Strings as JavaScript sees them
  // ---------------------------------------------------------------------------

  /** The UTF-16 code units of one character: the character itself below
      0x10000, otherwise a surrogate pair that decodes back to it. A single
      unit is never a surrogate, as a `char` never is. */
  function CodeUnitsOf(c: char): (u: seq<int>)
    ensures 1 <= |u| <= 2
    ensures forall i :: 0 <= i < |u| ==> 0 <= u[i] < 0x1_0000
    ensures |u| == 1 <==> c as int < 0x1_0000
    ensures |u| == 1 ==> u[0] == c as int && !(0xD800 <= u[0] < 0xE000)
    ensures |u| == 2 ==> 0xD800 <= u[0] < 0xDC00 <= u[1] < 0xE000 &&
                         c as int == 0x1_0000 + (u[0] - 0xD800) * 0x400 + (u[1] - 0xDC00)
  {
    var n := c as int;
    if n < 0x1_0000 then [n]
    else [0xD800 + (n - 0x1_0000) / 0x400, 0xDC00 + (n - 0x1_0000) % 0x400]
  }

  /** A string's code units: what `length` counts and `charCodeAt` reads. */
  function CodeUnits(s: string): (u: seq<int>)
    ensures |s| <= |u| <= 2 * |s|
    ensures forall i :: 0 <= i < |u| ==> 0 <= u[i] < 0x1_0000
  {
    if s == [] then [] else CodeUnitsOf(s[0]) + CodeUnits(s[1..])
  }

  /** A string of characters below 0x10000 has one code unit per character,
      the character's own code. */
  lemma {:induction false} CodeUnitsOfBmp(s: string)
    requires forall i :: 0 <= i < |s| ==> s[i] as int < 0x1_0000
    ensures CodeUnits(s) == seq(|s|, i requires 0 <= i < |s| => s[i] as int)
  {
    if s != [] {
      CodeUnitsOfBmp(s[1..]);
    }
  }

  /** The code units of a concatenation are those of its parts. */
  lemma {:induction false} CodeUnitsAppend(a: string, b: string)
    ensures CodeUnits(a + b) == CodeUnits(a) + CodeUnits(b)
  {
    if a == [] {
      assert a + b == b;
    } else {
      assert (a + b)[0] == a[0] && (a + b)[1..] == a[1..] + b;
      CodeUnitsAppend(a[1..], b);
    }
  }

  function LowerChar(c: char): char {
    if 'A' <= c <= 'Z' then (c as int + 32) as char else c
  }

  function UpperChar(c: char): char {
    if 'a' <= c <= 'z' then (c as int - 32) as char else c
  }

  /** `s.toLowerCase()` on ASCII letters. */
  function LowerAscii(s: string): (r: string)
    ensures |r| == |s|
    ensures forall i :: 0 <= i < |s| ==> r[i] == LowerChar(s[i])
  {
    seq(|s|, i requires 0 <= i < |s| => LowerChar(s[i]))
  }

  lemma LowerAsciiAppend(a: string, b: string)
    ensures LowerAscii(a + b) == LowerAscii(a) + LowerAscii(b)
  {
    assert forall i :: 0 <= i < |a + b| ==> LowerAscii(a + b)[i] == (LowerAscii(a) + LowerAscii(b))[i];
  }

  /** `s.toUpperCase()` on ASCII letters. */
  function UpperAscii(s: string): (r: string)
    ensures |r| == |s|
    ensures forall i :: 0 <= i < |s| ==> r[i] == UpperChar(s[i])
  {
    seq(|s|, i requires 0 <= i < |s| => UpperChar(s[i]))
  }

  // ---------------------------------------------------------------------------
  // Thrown errors
  // ---------------------------------------------------------------------------

  /** `error.response` of an HTTP failure: its status and its body. */
  datatype ErrorResponse = ErrorResponse(status: int, data: Value)

  /** Something thrown: a message and the optional fields that
      `_catchCommonErrors` and `withSessionKey` inspect. */
  datatype JsError = JsError(
    message: string,
    status: Option<int>,
    code: Option<string>,
    response: Option<ErrorResponse>)

  /** `new Error(message)`: none of the inspected fields is set. */
  function NewError(message: string): (e: JsError)
    ensures Plain(e) && e.message == message
  {
    JsError(message, None, None, None)
  }

  /** An error carrying no status, code or response, such as one the client
      built itself. */
  predicate Plain(e: JsError) {
    e.status.None? && e.code.None? && e.response.None?
  }

  // ---------------------------------------------------------------------------
  // Substrings
  // ---------------------------------------------------------------------------

  predicate StartsWith(s: string, prefix: string) {
    |prefix| <= |s| && s[..|prefix|] == prefix
  }

  /** `part` occurs in `s` at index `i`. */
  predicate OccursAt(s: string, part: string, i: int) {
    0 <= i <= |s| - |part| && s[i..i + |part|] == part
  }

  ghost predicate Contains(s: string, part: string) {
    exists i :: OccursAt(s, part, i)
  }

  lemma ContainsMiddle(a: string, b: string, c: string)
    ensures Contains(a + b + c, b)
  {
    var s := a + b + c;
    assert s[|a|..|a| + |b|] == b;
    assert OccursAt(s, b, |a|);
  }

  lemma ContainsAfter(a: string, b: string, part: string)
    requires Contains(b, part)
    ensures Contains(a + b, part)
  {
    var i :| OccursAt(b, part, i);
    assert (a + b)[|a| + i..|a| + i + |part|] == b[i..i + |part|];
    assert OccursAt(a + b, part, |a| + i);
  }

  lemma StartsWithConcat(a: string, b: string)
    ensures StartsWith(a + b, a)
  {
    assert (a + b)[..|a|] == a;
  }

  lemma StartsWithBefore(a: string, prefix: string, b: string)
    requires StartsWith(a, prefix)
    ensures StartsWith(a + b, prefix)
  {
    assert (a + b)[..|prefix|] == a[..|prefix|];
  }
}

=== FILE: requests.dfy ===
/**
 * What `_request` sends: the query (for GET, `data` merged under `query`),
 * the URL (`endpoint`, then `?` and the query string when it is non-empty)
 * and the body (none for GET, `data` otherwise); what `request` gives back
 * from a response; and the requests `TemplateResource` builds.
 */
module Requests {
  import opened JsValues

  type Fields = seq<(string, Value)>

  /** The argument of `_request`/`request`, less the headers. */
  datatype RequestSpec = RequestSpec(httpMethod: string, data: Value, endpoint: string, query: Value)

  /** What is handed to the transport: method, URL relative to the base URL,
      headers, body and base URL. */
  datatype HttpRequest = HttpRequest(httpMethod: string, url: string, headers: Value, body: Value, baseUrl: string)

  datatype HttpResponse = HttpResponse(status: int, data: Value)

  /** What the transport does with one request: a response, or a rejection
      (an HTTP error status, a connection failure, ...). */
  datatype Outcome = Responded(response: HttpResponse) | Failed(error: JsError)

  /** `method.toLowerCase() === 'get'`. */
  predicate IsGet(httpMethod: string) {
    LowerAscii(httpMethod) == "get"
  }

  // ---------------------------------------------------------------------------
  // Object fields and `assignInAll`
  // ---------------------------------------------------------------------------

  function Keys(fields: Fields): set<string> {
    if fields == [] then {} else {fields[0].0} + Keys(fields[1..])
  }

  /** A JavaScript object never holds the same key twice. */
  predicate UniqueKeys(fields: Fields) {
    fields == [] || (fields[0].0 !in Keys(fields[1..]) && UniqueKeys(fields[1..]))
  }

  /** `obj[key] = value`: overwrites the field in place, or appends it. */
  function Put(fields: Fields, key: string, value: Value): (r: Fields)
    ensures Field(r, key) == value
    ensures forall k :: k != key ==> Field(r, k) == Field(fields, k)
    ensures Keys(r) == Keys(fields) + {key}
    ensures UniqueKeys(fields) ==> UniqueKeys(r)
  {
    if fields == [] then [(key, value)]
    else if fields[0].0 == key then
      assert ([(key, value)] + fields[1..])[1..] == fields[1..];
      [(key, value)] + fields[1..]
    else
      var rest := Put(fields[1..], key, value);
      assert ([fields[0]] + rest)[1..] == rest;
      [fields[0]] + rest
  }

  /** `Object.assign`-style copy of `source`'s fields onto `target`, in
      order; a later source field overwrites an earlier one. */
  function AssignIn(target: Fields, source: Fields): (r: Fields)
    ensures UniqueKeys(target) ==> UniqueKeys(r)
    ensures Keys(r) == Keys(target) + Keys(source)
    decreases |source|
  {
    if source == [] then target
    else AssignIn(Put(target, source[0].0, source[0].1), source[1..])
  }

  /** The fields a value contributes as a source of `assignInAll`: an
      object's own fields, an array's or a string's indices; nothing for
      `null`, `undefined`, booleans and numbers. */
  function EnumerableFields(v: Value): Fields {
    match v
    case Obj(fields) => fields
    case Arr(items) => seq(|items|, i requires 0 <= i < |items| => (Decimal(i), items[i]))
    case Str(s) => seq(|s|, i requires 0 <= i < |s| => (Decimal(i), Str([s[i]])))
    case _ => []
  }

  /** `assignInAll([data, query])`: a fresh object with `data`'s fields,
      then `query`'s over them. */
  function MergedQuery(data: Value, query: Value): Value {
    Obj(AssignIn(AssignIn([], EnumerableFields(data)), EnumerableFields(query)))
  }

  /** Copying unique-keyed fields: a copied key takes the source's value,
      every other key keeps the target's. */
  lemma {:induction false} AssignInFields(target: Fields, source: Fields, k: string)
    requires UniqueKeys(source)
    ensures Field(AssignIn(target, source), k) == if k in Keys(source) then Field(source, k) else Field(target, k)
    decreases |source|
  {
    if source != [] {
      var put := Put(target, source[0].0, source[0].1);
      var rest := source[1..];
      AssignInFields(put, rest, k);
    }
  }

  /** A GET's query holds every key of `data` and of `query`; where both
      have a key, `query`'s value wins. */
  lemma MergedQueryFields(data: Value, query: Value, k: string)
    requires UniqueKeys(EnumerableFields(data)) && UniqueKeys(EnumerableFields(query))
    ensures var merged := MergedQuery(data, query).fields;
            k in Keys(merged) <==> k in Keys(EnumerableFields(data)) || k in Keys(EnumerableFields(query))
    ensures Prop(MergedQuery(data, query), k) ==
            if k in Keys(EnumerableFields(query)) then Field(EnumerableFields(query), k)
            else Field(EnumerableFields(data), k)
  {
    var d, q := EnumerableFields(data), EnumerableFields(query);
    AssignInFields(AssignIn([], d), q, k);
    AssignInFields([], d, k);
    if k !in Keys(q) && k !in Keys(d) {
      NoKeyNoField(d, k);
    }
  }

  lemma {:induction false} NoKeyNoField(fields: Fields, k: string)
    requires k !in Keys(fields)
    ensures Field(fields, k) == Undefined
  {
    if fields != [] {
      NoKeyNoField(fields[1..], k);
    }
  }

  // ---------------------------------------------------------------------------
  // `querystring.stringify`
  // ---------------------------------------------------------------------------

  /** How a single value is written in a query string. */
  function StringifyPrimitive(v: Value): string {
    match v
    case Str(s) => s
    case Num(n) => Decimal(n)
    case Bool(b) => if b then "true" else "false"
    case _ => ""
  }

  /** The `key=value` pairs of one field: one per element for an array (none
      for an empty one), exactly one otherwise. */
  function FieldPairs(key: string, v: Value): (r: seq<string>)
    ensures v.Arr? ==> |r| == |v.items|
    ensures !v.Arr? ==> |r| == 1
    ensures forall i :: 0 <= i < |r| ==> StartsWith(r[i], key + "=")
  {
    match v
    case Arr(items) =>
      var r := seq(|items|, j requires 0 <= j < |items| => key + "=" + StringifyPrimitive(items[j]));
      assert forall j :: 0 <= j < |items| ==> r[j][..|key + "="|] == key + "=";
      r
    case _ =>
      assert (key + "=" + StringifyPrimitive(v))[..|key + "="|] == key + "=";
      [key + "=" + StringifyPrimitive(v)]
  }

  function Pairs(fields: Fields): (r: seq<string>)
    ensures forall i :: 0 <= i < |r| ==> r[i] != ""
  {
    if fields == [] then []
    else
      var first := FieldPairs(fields[0].0, fields[0].1);
      assert forall i :: 0 <= i < |first| ==> |first[i]| >= 1 by {
        forall i | 0 <= i < |first| ensures |first[i]| >= 1 {
          assert StartsWith(first[i], fields[0].0 + "=");
        }
      }
      first + Pairs(fields[1..])
  }

  /** The keys `querystring.stringify` walks: an object's own fields, an
      array's indices; a primitive has none. */
  function OwnFields(v: Value): Fields {
    match v
    case Obj(fields) => fields
    case Arr(items) => seq(|items|, i requires 0 <= i < |items| => (Decimal(i), items[i]))
    case _ => []
  }

  /** `querystring.stringify(q)`: the pairs joined with `&`. */
  function QueryString(q: Value): string {
    Join(Pairs(OwnFields(q)), "&")
  }

  lemma {:induction false} JoinEmpty(parts: seq<string>, separator: string)
    requires forall i :: 0 <= i < |parts| ==> parts[i] != ""
    ensures Join(parts, separator) == "" <==> parts == []
  {
  }

  /** The query string is empty exactly when no field yields a pair, that is
      when every field holds an empty array. In particular an absent or
      empty query gives `""`. */
  lemma {:induction false} QueryStringEmpty(q: Value)
    ensures QueryString(q) == "" <==> forall i :: 0 <= i < |OwnFields(q)| ==> OwnFields(q)[i].1 == Arr([])
  {
    JoinEmpty(Pairs(OwnFields(q)), "&");
    PairsEmpty(OwnFields(q));
  }

  lemma {:induction false} PairsEmpty(fields: Fields)
    ensures Pairs(fields) == [] <==> forall i :: 0 <= i < |fields| ==> fields[i].1 == Arr([])
  {
    if fields != [] {
      PairsEmpty(fields[1..]);
      assert Pairs(fields) == FieldPairs(fields[0].0, fields[0].1) + Pairs(fields[1..]);
      assert forall i :: 0 < i < |fields| ==> fields[1..][i - 1] == fields[i];
    }
  }

  // ---------------------------------------------------------------------------
  // `_request`
  // ---------------------------------------------------------------------------

  /** The query `_request` stringifies. */
  function RequestQuery(spec: RequestSpec): Value {
    if IsGet(spec.httpMethod) then MergedQuery(spec.data, spec.query) else spec.query
  }

  /** `_request`'s shaping: the URL is the endpoint, followed by `?` and the
      query string only when that is non-empty; a GET carries no body. */
  function ShapeRequest(spec: RequestSpec, headers: Value, baseUrl: string): (r: HttpRequest)
    ensures r.httpMethod == spec.httpMethod && r.headers == headers && r.baseUrl == baseUrl
    ensures StartsWith(r.url, spec.endpoint)
    ensures r.url == spec.endpoint <==> QueryString(RequestQuery(spec)) == ""
    ensures r.url != spec.endpoint ==>
              r.url[|spec.endpoint|] == '?' && r.url[|spec.endpoint| + 1..] == QueryString(RequestQuery(spec))
    ensures IsGet(spec.httpMethod) ==> r.body == Null
    ensures !IsGet(spec.httpMethod) ==> r.body == spec.data
  {
    var qs := QueryString(RequestQuery(spec));
    var url := spec.endpoint + (if qs != "" then "?" + qs else "");
    assert url[..|spec.endpoint|] == spec.endpoint;
    HttpRequest(spec.httpMethod, url, headers, if IsGet(spec.httpMethod) then Null else spec.data, baseUrl)
  }

  /** The method's case does not matter: `get`, `GET` and `Get` shape the
      same URL and body. */
  lemma MethodCaseInsensitive(spec: RequestSpec, httpMethod: string, headers: Value, baseUrl: string)
    requires LowerAscii(httpMethod) == LowerAscii(spec.httpMethod)
    ensures var a := ShapeRequest(spec, headers, baseUrl);
            var b := ShapeRequest(spec.(httpMethod := httpMethod), headers, baseUrl);
            a.url == b.url && a.body == b.body
  {
  }

  /** For any other method the query is sent as given: `data` never leaks
      into the URL, it travels in the body. */
  lemma NonGetQueryIsUnmerged(spec: RequestSpec, headers: Value, baseUrl: string)
    requires !IsGet(spec.httpMethod)
    ensures ShapeRequest(spec, headers, baseUrl).url ==
            ShapeRequest(spec.(data := Undefined), headers, baseUrl).url
  {
  }

  /** A GET's data ends up in the URL and never in the body. */
  lemma GetDataGoesToQuery(spec: RequestSpec, headers: Value, baseUrl: string)
    requires IsGet(spec.httpMethod)
    ensures ShapeRequest(spec, headers, baseUrl).body == Null
    ensures ShapeRequest(spec, headers, baseUrl).url ==
            ShapeRequest(RequestSpec(spec.httpMethod, Undefined, spec.endpoint, MergedQuery(spec.data, spec.query)), headers, baseUrl).url
  {
    var merged := MergedQuery(spec.data, spec.query);
    AssignInFresh([], merged.fields);
    assert MergedQuery(Undefined, merged) == merged;
  }

  lemma {:induction false} KeysConcat(a: Fields, b: Fields)
    ensures Keys(a + b) == Keys(a) + Keys(b)
  {
    if a != [] {
      KeysConcat(a[1..], b);
      assert (a + b)[1..] == a[1..] + b;
    } else {
      assert a + b == b;
    }
  }

  /** Writing a key the object does not have appends it. */
  lemma {:induction false} PutFresh(fields: Fields, key: string, value: Value)
    requires key !in Keys(fields)
    ensures Put(fields, key, value) == fields + [(key, value)]
  {
    if fields != [] {
      PutFresh(fields[1..], key, value);
      assert [fields[0]] + (fields[1..] + [(key, value)]) == fields + [(key, value)];
    }
  }

  /** Copying an object's fields onto one with none of its keys appends them
      in order: `assignInAll` copies an object faithfully. */
  lemma {:induction false} AssignInFresh(target: Fields, source: Fields)
    requires UniqueKeys(source) && Keys(target) !! Keys(source)
    ensures AssignIn(target, source) == target + source
    decreases |source|
  {
    if source != [] {
      PutFresh(target, source[0].0, source[0].1);
      FreshAfterPut(target, source);
      AssignInFresh(target + [source[0]], source[1..]);
      assert source == [source[0]] + source[1..];
    }
  }

  /** After the first field of `source` is appended to `target`, the rest
      of `source` is still fresh for it. */
  lemma FreshAfterPut(target: Fields, source: Fields)
    requires source != [] && UniqueKeys(source) && Keys(target) !! Keys(source)
    ensures UniqueKeys(source[1..]) && Keys(target + [source[0]]) !! Keys(source[1..])
  {
    KeysConcat(target, [source[0]]);
    assert Keys([source[0]]) == {source[0].0};
  }

  // ---------------------------------------------------------------------------
  // `request`'s result
  // ---------------------------------------------------------------------------

  /** The response as a JavaScript object. */
  function ResponseObject(response: HttpResponse): Value {
    Obj([("status", Num(response.status)), ("data", response.data)])
  }

  /** `response.data || response`. */
  function Unwrap(response: HttpResponse): (v: Value)
    ensures Truthy(v)
    ensures Truthy(response.data) ==> v == response.data
    ensures !Truthy(response.data) ==> Prop(v, "status") == Num(response.status)
  {
    Or(response.data, ResponseObject(response))
  }

  // ---------------------------------------------------------------------------
  // `TemplateResource`
  // ---------------------------------------------------------------------------

  const TemplatesEndpoint: string := "/v1/templates"

  /** `templates.index()`. */
  function IndexSpec(): (r: RequestSpec)
    ensures IsGet(r.httpMethod) && r.endpoint == TemplatesEndpoint
    ensures r.data == Undefined && r.query == Undefined
  {
    assert LowerAscii("GET") == "get" by {
      var r := LowerAscii("GET");
      assert r[0] == 'g' && r[1] == 'e' && r[2] == 't';
    }
    RequestSpec("GET", Undefined, TemplatesEndpoint, Undefined)
  }

  function RenderEndpoint(templateId: Value): string {
    TemplatesEndpoint + "/" + ToString(templateId) + "/renders"
  }

  /** The `TypeError` reading `.query` of `undefined` or `null` raises. */
  function ReadQueryError(options: Value): JsError {
    NewError("Cannot read properties of " + ToString(options) + " (reading 'query')")
  }

  /** `templates.render(templateID, options)`: a POST to the template's
      `renders` endpoint with `options.query` as its query and no data;
      reading `.query` of a missing `options` fails before any request. */
  function RenderSpec(templateId: Value, options: Value): (r: Result<RequestSpec, JsError>)
    ensures r.Err? <==> options == Undefined || options == Null
    ensures r.Err? ==> r.error == ReadQueryError(options)
    ensures r.Ok? ==> !IsGet(r.value.httpMethod) && r.value.data == Undefined
    ensures r.Ok? ==> r.value.endpoint == RenderEndpoint(templateId) && r.value.query == Prop(options, "query")
  {
    if options == Undefined || options == Null then Err(ReadQueryError(options))
    else
      assert LowerAscii("POST") == "post";
      Ok(RequestSpec("POST", Undefined, RenderEndpoint(templateId), Prop(options, "query")))
  }

  /** `templates.index()` asks for `/v1/templates` exactly, with no body. */
  lemma IndexRequest(headers: Value, baseUrl: string)
    ensures ShapeRequest(IndexSpec(), headers, baseUrl).url == TemplatesEndpoint
    ensures ShapeRequest(IndexSpec(), headers, baseUrl).body == Null
  {
    var spec := IndexSpec();
    var merged := MergedQuery(Undefined, Undefined);
    assert merged == Obj([]);
    QueryStringEmpty(merged);
  }

  /** A render sends `options.query` in the URL and no body; with no query
      the URL is the bare `renders` endpoint. */
  lemma RenderRequest(templateId: Value, options: Value, headers: Value, baseUrl: string)
    requires RenderSpec(templateId, options).Ok?
    ensures var r := ShapeRequest(RenderSpec(templateId, options).value, headers, baseUrl);
            r.body == Undefined && StartsWith(r.url, RenderEndpoint(templateId)) &&
            (Prop(options, "query") == Undefined ==> r.url == RenderEndpoint(templateId))
  {
    if Prop(options, "query") == Undefined {
      QueryStringEmpty(Undefined);
    }
  }
}

=== FILE: session.dfy ===
/**
 * The client's session logic as a state machine over a `Snapshot` of
 * everything it changes: the in-memory session key, the cache file, the
 * requests sent to the transport and the lines logged. The transport is a
 * `Server`: the outcome of each request, given how many were sent before it.
 * This is the specification the `Client` class's methods are proved against.
 */
module Session {
  import opened JsValues
  import opened Configuration
  import opened CacheStore
  import opened ErrorHandling
  import opened Requests

  /** What the HTTP transport does with the request numbered `n` (counting
      from 0 over the client's lifetime). */
  type Server = (nat, HttpRequest) -> Outcome

  /** What the session logic reads from the settings: the `sessionKey`
      override, the credentials, the base URL and `options.verbose`. The
      sources are fixed once a client is constructed, so every read of them
      gives the same answer; `Resolve` makes them once. */
  datatype Resolved = Resolved(override: Value, credentials: Result<Value, JsError>,
                               baseUrl: Result<string, JsError>, verbose: bool)

  /** What a constructed client holds fixed: its variant, what it reads from
      its settings, and the namespace of its cache, if it has one. */
  datatype ClientSetup = ClientSetup(variant: Variant, settings: Resolved, cache: Option<string>)

  /** Everything the session logic changes. `sessionKey` is `_sessionKey`;
      `store` is the cache file's contents. */
  datatype Snapshot = Snapshot(sessionKey: Value, store: Option<Store>, sent: seq<HttpRequest>, log: seq<LogLine>)

  /** A step that settles with a value or an error, and the state after it. */
  datatype Acquired = Acquired(result: Result<Value, JsError>, st: Snapshot)

  /** How a `withSessionKey` call ends: it resolves, rejects, or is still
      retrying when the fuel runs out. */
  datatype CallResult = Returned(value: Value) | Threw(error: JsError) | Diverged
  datatype Called = Called(result: CallResult, st: Snapshot)

  /** The callback given to `withSessionKey`: `request`'s closure, which
      sends one request with the key as its `session` header, or a callback
      that only computes a result from the key. */
  datatype Action = SendRequest(spec: RequestSpec) | Compute(f: Value -> Result<Value, JsError>)

  const SessionsEndpoint: string := "/v1/sessions"
  const SessionKeyEntry: string := "sessionKey"
  const SessionExpiredNotice: string := ("unimail API: Session " + "key expired; fetching " + "new one")

  const NoSessionTokenTail: string :=
    (" Could not get session " + "token for some reason; " + "could be a unimail " +
     "issue. Please report " + "this incident to ") +
    SupportEmail + (". Thank you for " + "your patience.")

  const NoSessionTokenMessage: string := ErrorPrelude + NoSessionTokenTail

  const SwallowedHead: string :=
    (" Swallowed an error " + "trying to send you " + "a message. Not sure " +
     "exactly what happened, " + "but the raw message " + "is this: ")

  function SwallowedMessage(messages: Value): string {
    ErrorPrelude + SwallowedHead + ToString(messages)
  }

  /** The log lines a handled error adds. */
  function Logged(line: Option<LogLine>): seq<LogLine> {
    if line.Some? then [line.value] else []
  }

  /** `getBaseURL()`. */
  function BaseUrlOf(setup: ClientSetup): Result<string, JsError> {
    setup.settings.baseUrl
  }

  /** `getConfigValue('sessionKey', {required: false})`. */
  function Override(setup: ClientSetup): Value {
    setup.settings.override
  }

  /** `this.options.verbose`. */
  predicate Verbose(setup: ClientSetup) {
    setup.settings.verbose
  }

  /** What `get('sessionKey')` reads from the cache, `null` without one. */
  function CachedKey(setup: ClientSetup, st: Snapshot): Value {
    if setup.cache.Some? then Lookup(st.store, setup.cache.value, SessionKeyEntry) else Null
  }

  // ---------------------------------------------------------------------------
  // `_getSessionKey`
  // ---------------------------------------------------------------------------

  /** `{key: getConfigValue('tokenKey'), secret: getConfigValue('tokenSecret')}`:
      fails like the first missing credential. */
  function Credentials(src: Sources): (r: Result<Value, JsError>)
    ensures GetConfigValue(src, "tokenKey", true).Err? ==> r == Err(GetConfigValue(src, "tokenKey", true).error)
    ensures GetConfigValue(src, "tokenKey", true).Ok? && GetConfigValue(src, "tokenSecret", true).Err? ==>
              r == Err(GetConfigValue(src, "tokenSecret", true).error)
    ensures GetConfigValue(src, "tokenKey", true).Ok? && GetConfigValue(src, "tokenSecret", true).Ok? ==>
              r == Ok(Obj([("key", GetConfigValue(src, "tokenKey", true).value),
                           ("secret", GetConfigValue(src, "tokenSecret", true).value)]))
  {
    match GetConfigValue(src, "tokenKey", true)
    case Err(e) => Err(e)
    case Ok(key) =>
      match GetConfigValue(src, "tokenSecret", true)
      case Err(e) => Err(e)
      case Ok(secret) => Ok(Obj([("key", key), ("secret", secret)]))
  }

  /** What a client with these sources reads from them. */
  function Resolve(variant: Variant, src: Sources): Resolved {
    Resolved(GetConfigValue(src, "sessionKey", false).value, Credentials(src), BaseUrl(variant, src),
             Truthy(Setting(src.options, "verbose")))
  }

  /** The setup of a client with these sources and cache namespace. */
  function Setup(variant: Variant, src: Sources, cache: Option<string>): ClientSetup {
    ClientSetup(variant, Resolve(variant, src), cache)
  }

  /** `setup` holds what a client of this variant reads from `src`. Each
      read is stated for any `s` equal to `src`, so that a proof unfolds a
      read only where it needs it. */
  ghost predicate Reads(setup: ClientSetup, variant: Variant, src: Sources) {
    setup.variant == variant && setup.settings.verbose == Truthy(Setting(src.options, "verbose")) &&
    (forall s :: s == src ==> setup.settings.override == GetConfigValue(s, "sessionKey", false).value) &&
    (forall s :: s == src ==> setup.settings.credentials == Credentials(s)) &&
    (forall s :: s == src ==> setup.settings.baseUrl == BaseUrl(variant, s))
  }

  /** `Reads` pins the setup down: it is `Setup` of the same sources. */
  lemma ReadsDetermineSetup(setup: ClientSetup, variant: Variant, src: Sources)
    requires Reads(setup, variant, src)
    ensures setup == Setup(variant, src, setup.cache)
  {
    assert setup.settings.override == GetConfigValue(src, "sessionKey", false).value;
    assert setup.settings.credentials == Credentials(src);
    assert setup.settings.baseUrl == BaseUrl(variant, src);
  }

  /** `Setup(variant, src, cache)`, handed over through what it reads. */
  lemma MakeSetup(variant: Variant, src: Sources, cache: Option<string>) returns (setup: ClientSetup)
    ensures Reads(setup, variant, src) && setup.cache == cache
  {
    var settings := Resolved(GetConfigValue(src, "sessionKey", false).value, Credentials(src), BaseUrl(variant, src),
                             Truthy(Setting(src.options, "verbose")));
    setup := ClientSetup(variant, settings, cache);
  }

  /** The authentication request: a POST of the credentials to
      `/v1/sessions`, with no headers and no query. Reading the credentials or
      the base URL can fail first, in that order. */
  function SessionRequest(setup: ClientSetup): (r: Result<HttpRequest, JsError>)
    ensures r.Ok? <==> setup.settings.credentials.Ok? && BaseUrlOf(setup).Ok?
    ensures setup.settings.credentials.Err? ==> r == Err(setup.settings.credentials.error)
    ensures r.Ok? ==> r.value == HttpRequest("post", SessionsEndpoint, Undefined, setup.settings.credentials.value, BaseUrlOf(setup).value)
  {
    match setup.settings.credentials
    case Err(e) => Err(e)
    case Ok(body) =>
      match BaseUrlOf(setup)
      case Err(e) => Err(e)
      case Ok(url) =>
        var spec := RequestSpec("post", body, SessionsEndpoint, Undefined);
        assert !IsGet("post") by {
          assert LowerAscii("post")[0] == 'p';
        }
        QueryStringEmpty(Undefined);
        Ok(ShapeRequest(spec, Undefined, url))
  }

  /** The cache contents after `set('sessionKey', key)`, when there is a
      cache. */
  function CacheWith(setup: ClientSetup, store: Option<Store>, key: Value): Option<Store> {
    if setup.cache.Some? then Some(Insert(store, setup.cache.value, SessionKeyEntry, key)) else store
  }

  /** What a successful authentication response changes: with a truthy
      `data.sessionToken` the key is kept in memory and written to the cache.
      In `Current` a truthy `data.messages` is then forwarded; as the
      forwarding refers to an unbound name, every message that reaches it
      ends in the fallback warning (an empty array reaches none). */
  function AdoptToken(setup: ClientSetup, st: Snapshot, data: Value): (st': Snapshot)
    ensures st'.sent == st.sent
    ensures st.log <= st'.log
    ensures TokenIn(data).Some? ==> st'.sessionKey == TokenIn(data).value && st'.store == CacheWith(setup, st.store, TokenIn(data).value)
    ensures TokenIn(data).None? ==> st' == st
  {
    if TokenIn(data).None? then st
    else
      var token := TokenIn(data).value;
      var messages := Prop(data, "messages");
      var warned := if setup.variant == Current && Truthy(messages) && messages != Arr([])
                    then [Warning(SwallowedMessage(messages))] else [];
      st.(sessionKey := token, log := st.log + warned, store := CacheWith(setup, st.store, token))
  }

  /** `data.sessionToken` of a response body, when both are truthy. */
  function TokenIn(data: Value): (t: Option<Value>)
    ensures t.Some? ==> Truthy(t.value)
  {
    if Truthy(data) && Truthy(Prop(data, "sessionToken")) then Some(Prop(data, "sessionToken")) else None
  }

  /** The token a fetch obtains from the response to the authentication
      request, if any. */
  function FetchedToken(setup: ClientSetup, server: Server, st: Snapshot): (t: Option<Value>)
    ensures t.Some? ==> Truthy(t.value) && SessionRequest(setup).Ok?
  {
    if SessionRequest(setup).Err? then None
    else
      match server(|st.sent|, SessionRequest(setup).value)
      case Failed(_) => None
      case Responded(response) => TokenIn(response.data)
  }

  /** The fetch step of `_getSessionKey`: build the request, send it, and
      adopt the token it returns. Fails when the request cannot be built or
      the transport rejects it. */
  function Authenticate(setup: ClientSetup, server: Server, st: Snapshot): (r: (Option<JsError>, Snapshot))
    ensures SessionRequest(setup).Err? ==> r == (Some(SessionRequest(setup).error), st)
    ensures SessionRequest(setup).Ok? ==> r.1.sent == st.sent + [SessionRequest(setup).value]
    ensures FetchedToken(setup, server, st).Some? ==>
              var token := FetchedToken(setup, server, st).value;
              r.0.None? && r.1.sessionKey == token && r.1.store == CacheWith(setup, st.store, token)
    ensures FetchedToken(setup, server, st).None? ==> r.1.sessionKey == st.sessionKey && r.1.store == st.store
    ensures st.log <= r.1.log
    // a rejection by the transport is the fetch's failure
    ensures SessionRequest(setup).Ok? && server(|st.sent|, SessionRequest(setup).value).Failed? ==>
              r == (Some(server(|st.sent|, SessionRequest(setup).value).error), st.(sent := st.sent + [SessionRequest(setup).value]))
    ensures r.0.None? <==> SessionRequest(setup).Ok? && server(|st.sent|, SessionRequest(setup).value).Responded?
  {
    match SessionRequest(setup)
    case Err(e) => (Some(e), st)
    case Ok(req) =>
      var st1 := st.(sent := st.sent + [req]);
      match server(|st.sent|, req)
      case Failed(e) => (Some(e), st1)
      case Responded(response) => (None, AdoptToken(setup, st1, response.data))
  }

  /** Whether `_getSessionKey(force)` gets past the override and the cache
      to the fetch step. */
  predicate NeedsFetch(setup: ClientSetup, st: Snapshot, force: bool) {
    !Truthy(Override(setup)) &&
    !(!force && !Truthy(st.sessionKey) && Truthy(CachedKey(setup, st))) &&
    (!Truthy(st.sessionKey) || force)
  }

  /** `_getSessionKey(force)`. */
  function AcquireSessionKey(setup: ClientSetup, server: Server, st: Snapshot, force: bool): (a: Acquired)
    // a truthy override is returned as it is, and nothing else happens
    ensures Truthy(Override(setup)) ==> a == Acquired(Ok(Override(setup)), st)
    // a cache hit is returned, and is not adopted as `_sessionKey`
    ensures !Truthy(Override(setup)) && !force && !Truthy(st.sessionKey) && Truthy(CachedKey(setup, st)) ==>
              a == Acquired(Ok(CachedKey(setup, st)), st)
    // a key already held is reused unless forced
    ensures !Truthy(Override(setup)) && !force && Truthy(st.sessionKey) ==> a == Acquired(Ok(st.sessionKey), st)
    // at most one request goes out, and only on the fetch step
    ensures a.st.sent == st.sent || (NeedsFetch(setup, st, force) && SessionRequest(setup).Ok? &&
                                     a.st.sent == st.sent + [SessionRequest(setup).value])
    ensures NeedsFetch(setup, st, force) && SessionRequest(setup).Ok? ==> |a.st.sent| == |st.sent| + 1
    // whatever settles is truthy
    ensures a.result.Ok? ==> Truthy(a.result.value)
    // it only fails on the fetch step: when the request cannot be built, or
    // the transport rejects it -- a forced refresh included
    ensures a.result.Err? ==> NeedsFetch(setup, st, force)
    ensures NeedsFetch(setup, st, force) && SessionRequest(setup).Err? ==> a == Acquired(Err(SessionRequest(setup).error), st)
    ensures NeedsFetch(setup, st, force) && SessionRequest(setup).Ok? && server(|st.sent|, SessionRequest(setup).value).Failed? ==>
              a.result == Err(server(|st.sent|, SessionRequest(setup).value).error)
    // the in-memory key and the cache only ever take a fresh token
    ensures a.st.sessionKey == st.sessionKey || (Truthy(a.st.sessionKey) && a.result == Ok(a.st.sessionKey))
    ensures a.st.store == st.store || a.st.store == CacheWith(setup, st.store, a.st.sessionKey)
    // the log only grows
    ensures st.log <= a.st.log
  {
    var override := Override(setup);
    if Truthy(override) then
      Acquired(Ok(override), st)
    else if !force && !Truthy(st.sessionKey) && Truthy(CachedKey(setup, st)) then
      Acquired(Ok(CachedKey(setup, st)), st)
    else
      FetchOrReuse(setup, server, st, force)
  }

  /** `_getSessionKey(force)` past the override and the cache: fetch when no
      key is held or the call is forced, then settle on the key held. */
  function FetchOrReuse(setup: ClientSetup, server: Server, st: Snapshot, force: bool): (a: Acquired)
    ensures a.result.Ok? ==> Truthy(a.result.value) && a.result.value == a.st.sessionKey
    // a key held and not forced is reused without a request
    ensures Truthy(st.sessionKey) && !force ==> a == Acquired(Ok(st.sessionKey), st)
    // otherwise a failed fetch throws its failure, and a fetch that leaves
    // no key held throws the missing-token error
    ensures !Truthy(st.sessionKey) || force ==>
              var f := Authenticate(setup, server, st);
              (f.0.Some? ==> a == Acquired(Err(f.0.value), f.1)) &&
              (f.0.None? && !Truthy(f.1.sessionKey) ==> a == Acquired(Err(NewError(NoSessionTokenMessage)), f.1))
  {
    var (failure, st1) := if !Truthy(st.sessionKey) || force then Authenticate(setup, server, st) else (None, st);
    if failure.Some? then Acquired(Err(failure.value), st1)
    else if Truthy(st1.sessionKey) then Acquired(Ok(st1.sessionKey), st1)
    else Acquired(Err(NewError(NoSessionTokenMessage)), st1)
  }

  /** `getSessionKey(force)`: `_getSessionKey` with its failures classified
      as failures of "getting a session key". */
  function GetSessionKey(setup: ClientSetup, server: Server, st: Snapshot, force: bool): (a: Acquired)
    ensures var raw := AcquireSessionKey(setup, server, st, force);
            (raw.result.Ok? ==> a == raw) &&
            (raw.result.Err? ==>
               var h := CatchCommonErrors(raw.result.error, "getting a session key", BaseUrlOf(setup));
               a == Acquired(Err(h.thrown), raw.st.(log := raw.st.log + Logged(h.log))))
  {
    var raw := AcquireSessionKey(setup, server, st, force);
    match raw.result
    case Ok(_) => raw
    case Err(e) =>
      var h := CatchCommonErrors(e, "getting a session key", BaseUrlOf(setup));
      Acquired(Err(h.thrown), raw.st.(log := raw.st.log + Logged(h.log)))
  }

  // ---------------------------------------------------------------------------
  // `_getSessionKey`: what it promises
  // ---------------------------------------------------------------------------

  /** An authentication request goes out exactly when neither the override
      nor the cache answers, no key is held or the call is forced, and the
      request can be built. */
  lemma AuthenticatesExactlyWhen(setup: ClientSetup, server: Server, st: Snapshot, force: bool)
    ensures var a := AcquireSessionKey(setup, server, st, force);
            |a.st.sent| == |st.sent| + 1 <==> NeedsFetch(setup, st, force) && SessionRequest(setup).Ok?
    ensures var a := AcquireSessionKey(setup, server, st, force);
            |a.st.sent| != |st.sent| + 1 ==> a.st.sent == st.sent
  {
  }

  /** A token fetched with a cache configured is found by the next client
      with the same credentials: it answers from the cache, sends nothing and
      changes nothing. */
  lemma CachedTokenServesNextClient(setup: ClientSetup, server: Server, st: Snapshot, force: bool,
                                    server': Server, sent': seq<HttpRequest>, log': seq<LogLine>)
    requires setup.cache.Some? && NeedsFetch(setup, st, force) && FetchedToken(setup, server, st).Some?
    ensures var a := AcquireSessionKey(setup, server, st, force);
            var next := Snapshot(Undefined, a.st.store, sent', log');
            a.result == Ok(FetchedToken(setup, server, st).value) &&
            AcquireSessionKey(setup, server', next, false) == Acquired(a.result, next)
  {
    var token := FetchedToken(setup, server, st).value;
    LookupAfterInsert(st.store, setup.cache.value, SessionKeyEntry, token);
  }

  /** A forced refresh whose response carries no token does not fail when a
      key is already held: it settles with the old key. */
  lemma ForcedRefreshWithoutTokenKeepsOldKey(setup: ClientSetup, server: Server, st: Snapshot)
    requires !Truthy(Override(setup)) && Truthy(st.sessionKey) && SessionRequest(setup).Ok?
    requires var outcome := server(|st.sent|, SessionRequest(setup).value);
             outcome.Responded? && !Truthy(Prop(outcome.response.data, "sessionToken"))
    ensures AcquireSessionKey(setup, server, st, true).result == Ok(st.sessionKey)
  {
  }

  /** With no key held, a response without a token is an error of the
      client's own, which `getSessionKey` logs as unknown and rethrows. */
  lemma MissingTokenIsReported(setup: ClientSetup, server: Server, st: Snapshot, force: bool)
    requires NeedsFetch(setup, st, force) && !Truthy(st.sessionKey) && SessionRequest(setup).Ok?
    requires var outcome := server(|st.sent|, SessionRequest(setup).value);
             outcome.Responded? && !Truthy(Prop(outcome.response.data, "sessionToken"))
    ensures AcquireSessionKey(setup, server, st, force).result == Err(NewError(NoSessionTokenMessage))
    ensures var g := GetSessionKey(setup, server, st, force);
            g.result == Err(NewError(NoSessionTokenMessage)) &&
            g.st.log == AcquireSessionKey(setup, server, st, force).st.log +
                        [ErrorText(UnknownErrorMessage(Context("getting a session key")))]
  {
    PlainErrorsAreRethrown(NewError(NoSessionTokenMessage), "getting a session key", BaseUrlOf(setup));
  }

  // ---------------------------------------------------------------------------
  // `withSessionKey`, `request` and the template resource
  // ---------------------------------------------------------------------------

  /** The header `request` sends the key in. */
  function SessionHeader(key: Value): Value {
    Obj([("session", key)])
  }

  /** `fn(sessionKey)`: for `request`'s closure, shape the request, send it
      and unwrap the response. */
  function RunAction(setup: ClientSetup, server: Server, st: Snapshot, action: Action, key: Value): (r: Acquired)
    ensures action.Compute? ==> r == Acquired(action.f(key), st)
    ensures action.SendRequest? && BaseUrlOf(setup).Err? ==> r == Acquired(Err(BaseUrlOf(setup).error), st)
    ensures action.SendRequest? && BaseUrlOf(setup).Ok? ==>
              r.st == st.(sent := st.sent + [ShapeRequest(action.spec, SessionHeader(key), BaseUrlOf(setup).value)])
    ensures action.SendRequest? && r.result.Ok? ==> Truthy(r.result.value)
    // a response is unwrapped; a rejection is the callback's failure
    ensures action.SendRequest? && BaseUrlOf(setup).Ok? ==>
              var o := server(|st.sent|, ShapeRequest(action.spec, SessionHeader(key), BaseUrlOf(setup).value));
              r.result == if o.Responded? then Ok(Unwrap(o.response)) else Err(o.error)
  {
    match action
    case Compute(f) => Acquired(f(key), st)
    case SendRequest(spec) =>
      match BaseUrlOf(setup)
      case Err(e) => Acquired(Err(e), st)
      case Ok(url) =>
        var req := ShapeRequest(spec, SessionHeader(key), url);
        var st1 := st.(sent := st.sent + [req]);
        match server(|st.sent|, req)
        case Responded(response) => Acquired(Ok(Unwrap(response)), st1)
        case Failed(e) => Acquired(Err(e), st1)
  }

  /** The failures `withSessionKey` retries on: `e.response.status === 401`. */
  predicate Unauthorized(e: JsError) {
    e.response.Some? && e.response.value.status == 401
  }

  /** One round of `withSessionKey(fn, force)` in `Current`: get the key,
      then run the callback with it. A failure to get the key is rethrown
      as it is; so is a failure of the callback other than a 401. After a
      401 the round logs the expiry notice (when verbose) and asks for a
      `retry`. */
  function Round(setup: ClientSetup, server: Server, st: Snapshot, action: Action, force: bool): (r: (Called, bool))
    ensures !r.0.result.Diverged?
    ensures r.1 ==> r.0.result.Threw? && Unauthorized(r.0.result.error)
    ensures action.SendRequest? && r.0.result.Returned? ==> Truthy(r.0.result.value)
  {
    var k := GetSessionKey(setup, server, st, force);
    if k.result.Err? then (Called(Threw(k.result.error), k.st), false)
    else
      var a := RunAction(setup, server, k.st, action, k.result.value);
      if a.result.Ok? then (Called(Returned(a.result.value), a.st), false)
      else if !Unauthorized(a.result.error) then (Called(Threw(a.result.error), a.st), false)
      else
        var notice := if Verbose(setup) then [Info(SessionExpiredNotice)] else [];
        (Called(Threw(a.result.error), a.st.(log := a.st.log + notice)), true)
  }

  /** `withSessionKey(fn, force)` in `Current`: rounds until one does not
      ask for a retry, every round after the first forcing a fresh key. The
      source sets no bound on the number of rounds; `fuel` counts the
      rounds this model follows, and `Diverged` means it ran out. */
  function RetryingCall(setup: ClientSetup, server: Server, st: Snapshot, action: Action, force: bool, fuel: nat): (c: Called)
    ensures fuel == 0 ==> c == Called(Diverged, st)
    ensures action.SendRequest? && c.result.Returned? ==> Truthy(c.result.value)
    decreases fuel, 0
  {
    if fuel == 0 then Called(Diverged, st) else Attempt(setup, server, st, action, force, fuel - 1)
  }

  /** A call that gets to run: one round, then, after a 401, the retry with
      `fuel` rounds left. */
  function Attempt(setup: ClientSetup, server: Server, st: Snapshot, action: Action, force: bool, fuel: nat): (c: Called)
    ensures action.SendRequest? && c.result.Returned? ==> Truthy(c.result.value)
    decreases fuel, 1
  {
    var (c, retry) := Round(setup, server, st, action, force);
    if retry then RetryingCall(setup, server, c.st, action, true, fuel) else c
  }

  /** `withSessionKey(fn)` in `Legacy`: the key is never forced, and a
      failure of the callback is classified with no action named, logged as
      an object and rethrown. */
  function SingleCall(setup: ClientSetup, server: Server, st: Snapshot, action: Action): (c: Called)
    ensures !c.result.Diverged?
    ensures action.SendRequest? && c.result.Returned? ==> Truthy(c.result.value)
  {
    var k := GetSessionKey(setup, server, st, false);
    if k.result.Err? then Called(Threw(k.result.error), k.st)
    else
      var r := RunAction(setup, server, k.st, action, k.result.value);
      if r.result.Ok? then Called(Returned(r.result.value), r.st)
      else
        var h := CatchCommonErrors(r.result.error, "", BaseUrlOf(setup));
        Called(Threw(h.thrown), r.st.(log := r.st.log + Logged(h.log) + [ErrorObject(h.thrown)]))
  }

  /** `withSessionKey` of either variant. */
  function WithSessionKey(setup: ClientSetup, server: Server, st: Snapshot, action: Action, force: bool, fuel: nat): (c: Called)
    ensures c.result.Diverged? ==> setup.variant == Current
    ensures action.SendRequest? && c.result.Returned? ==> Truthy(c.result.value)
  {
    if setup.variant == Current then RetryingCall(setup, server, st, action, force, fuel)
    else SingleCall(setup, server, st, action)
  }

  /** `request(spec)` (`Current` only): `withSessionKey` around the request
      closure, its failures classified once more, with no action named. */
  function Request(setup: ClientSetup, server: Server, st: Snapshot, spec: RequestSpec, fuel: nat): (c: Called)
    requires setup.variant == Current
    ensures c.result.Returned? ==> Truthy(c.result.value)
    ensures var w := RetryingCall(setup, server, st, SendRequest(spec), false, fuel);
            !w.result.Threw? ==> c == w
    // a failure is classified once more, with no action named
    ensures var w := RetryingCall(setup, server, st, SendRequest(spec), false, fuel);
            w.result.Threw? ==>
              var h := CatchCommonErrors(w.result.error, "", BaseUrlOf(setup));
              c == Called(Threw(h.thrown), w.st.(log := w.st.log + Logged(h.log)))
  {
    var w := RetryingCall(setup, server, st, SendRequest(spec), false, fuel);
    match w.result
    case Threw(e) =>
      var h := CatchCommonErrors(e, "", BaseUrlOf(setup));
      Called(Threw(h.thrown), w.st.(log := w.st.log + Logged(h.log)))
    case _ => w
  }

  /** `templates.render(templateID, options)`: without `options` it fails
      before anything is sent or logged. */
  function TemplatesRender(setup: ClientSetup, server: Server, st: Snapshot, templateId: Value, options: Value, fuel: nat): (c: Called)
    requires setup.variant == Current
    ensures options == Undefined || options == Null ==> c == Called(Threw(ReadQueryError(options)), st)
    ensures !(options == Undefined || options == Null) ==>
              c == Request(setup, server, st, RenderSpec(templateId, options).value, fuel)
  {
    match RenderSpec(templateId, options)
    case Err(e) => Called(Threw(e), st)
    case Ok(spec) => Request(setup, server, st, spec, fuel)
  }

  // ---------------------------------------------------------------------------
  // `withSessionKey` and `request`: what they promise
  // ---------------------------------------------------------------------------

  /** A round only appends to what was sent and logged, and sends at most
      two requests: the authentication and the callback's. */
  lemma RoundBounds(setup: ClientSetup, server: Server, st: Snapshot, action: Action, force: bool)
    ensures var r := Round(setup, server, st, action, force).0;
            st.sent <= r.st.sent && |r.st.sent| <= |st.sent| + 2 && st.log <= r.st.log
  {
    var k := GetSessionKey(setup, server, st, force);
    KeyStepBounds(setup, server, st, force);
    if k.result.Ok? {
      ActionStepBounds(setup, server, k.st, action, k.result.value);
    }
  }

  /** Getting the key sends at most the authentication request. */
  lemma KeyStepBounds(setup: ClientSetup, server: Server, st: Snapshot, force: bool)
    ensures var k := GetSessionKey(setup, server, st, force);
            st.sent <= k.st.sent && |k.st.sent| <= |st.sent| + 1 && st.log <= k.st.log
  {
    var raw := AcquireSessionKey(setup, server, st, force);
    assert st.log <= raw.st.log;
  }

  /** The callback sends at most its own request and logs nothing. */
  lemma ActionStepBounds(setup: ClientSetup, server: Server, st: Snapshot, action: Action, key: Value)
    ensures var a := RunAction(setup, server, st, action, key);
            st.sent <= a.st.sent && |a.st.sent| <= |st.sent| + 1 && a.st.log == st.log
  {
  }

  /** However many rounds a call takes, it only appends to what was sent and
      logged, at most two requests per round. */
  lemma {:induction false} RetryingCallBounds(setup: ClientSetup, server: Server, st: Snapshot, action: Action,
                                               force: bool, fuel: nat)
    ensures var c := RetryingCall(setup, server, st, action, force, fuel);
            st.sent <= c.st.sent && |c.st.sent| <= |st.sent| + 2 * fuel && st.log <= c.st.log
    decreases fuel
  {
    if fuel > 0 {
      RoundBounds(setup, server, st, action, force);
      var (c, retry) := Round(setup, server, st, action, force);
      if retry {
        RetryingCallBounds(setup, server, c.st, action, true, fuel - 1);
      }
    }
  }

  /** Once a call settles, more fuel changes nothing: the bound only decides
      whether the model follows the call to its end. */
  lemma {:induction false} FuelMonotone(setup: ClientSetup, server: Server, st: Snapshot, action: Action,
                                         force: bool, fuel: nat, more: nat)
    requires fuel <= more && !RetryingCall(setup, server, st, action, force, fuel).result.Diverged?
    ensures RetryingCall(setup, server, st, action, force, more) == RetryingCall(setup, server, st, action, force, fuel)
    decreases fuel
  {
    var (c, retry) := Round(setup, server, st, action, force);
    if retry {
      FuelMonotone(setup, server, c.st, action, true, fuel - 1, more - 1);
    }
  }

  /** How a round of `Current` ends. A failure to get the key is rethrown as
      it is, and so is a failure of the callback other than a 401; neither
      asks for a retry. A callback that succeeds returns its value. A 401
      from the callback always asks for a retry. */
  lemma RoundOutcome(setup: ClientSetup, server: Server, st: Snapshot, action: Action, force: bool)
    ensures var k := GetSessionKey(setup, server, st, force);
            k.result.Err? ==> Round(setup, server, st, action, force) == (Called(Threw(k.result.error), k.st), false)
    ensures var k := GetSessionKey(setup, server, st, force);
            k.result.Ok? ==>
              var a := RunAction(setup, server, k.st, action, k.result.value);
              (a.result.Ok? ==> Round(setup, server, st, action, force) == (Called(Returned(a.result.value), a.st), false)) &&
              (a.result.Err? && !Unauthorized(a.result.error) ==>
                 Round(setup, server, st, action, force) == (Called(Threw(a.result.error), a.st), false)) &&
              (a.result.Err? ==> (Round(setup, server, st, action, force).1 <==> Unauthorized(a.result.error)))
  {
  }

  /** A round that does not ask for a retry settles the call with its own
      result: with `RetryStep`, this is the whole of `withSessionKey`. */
  lemma SettledRoundEndsCall(setup: ClientSetup, server: Server, st: Snapshot, action: Action, force: bool, fuel: nat)
    requires fuel > 0 && !Round(setup, server, st, action, force).1
    ensures RetryingCall(setup, server, st, action, force, fuel) == Round(setup, server, st, action, force).0
  {
    assert RetryingCall(setup, server, st, action, force, fuel) == Attempt(setup, server, st, action, force, fuel - 1);
  }

  /** A failure of the callback other than a 401 reaches the caller of
      `withSessionKey` in `Current` unchanged, after one round. */
  lemma CallbackFailureIsRethrown(setup: ClientSetup, server: Server, st: Snapshot, action: Action, force: bool, fuel: nat)
    requires fuel > 0
    requires var k := GetSessionKey(setup, server, st, force);
             k.result.Ok? && RunAction(setup, server, k.st, action, k.result.value).result.Err? &&
             !Unauthorized(RunAction(setup, server, k.st, action, k.result.value).result.error)
    ensures var k := GetSessionKey(setup, server, st, force);
            var a := RunAction(setup, server, k.st, action, k.result.value);
            RetryingCall(setup, server, st, action, force, fuel) == Called(Threw(a.result.error), a.st)
  {
    RoundOutcome(setup, server, st, action, force);
    SettledRoundEndsCall(setup, server, st, action, force, fuel);
  }

  /** How the single attempt of `Legacy` ends: a failure to get the key is
      rethrown as it is; a callback's value is returned; a callback's failure
      is classified with no action named, logged as an object, and what the
      classification gives is thrown. */
  lemma SingleCallOutcome(setup: ClientSetup, server: Server, st: Snapshot, action: Action)
    ensures var k := GetSessionKey(setup, server, st, false);
            k.result.Err? ==> SingleCall(setup, server, st, action) == Called(Threw(k.result.error), k.st)
    ensures var k := GetSessionKey(setup, server, st, false);
            k.result.Ok? ==>
              var a := RunAction(setup, server, k.st, action, k.result.value);
              (a.result.Ok? ==> SingleCall(setup, server, st, action) == Called(Returned(a.result.value), a.st)) &&
              (a.result.Err? ==>
                 var h := CatchCommonErrors(a.result.error, "", BaseUrlOf(setup));
                 SingleCall(setup, server, st, action) ==
                   Called(Threw(h.thrown), a.st.(log := a.st.log + Logged(h.log) + [ErrorObject(h.thrown)])))
  {
  }

  /** A callback failure carrying a server error (and no 401, no network
      code) reaches `request`'s caller as the server-error message with no
      action named: `request` classifies it with an empty gerund. */
  lemma CallbackServerErrorNamesNoAction(setup: ClientSetup, server: Server, st: Snapshot, spec: RequestSpec, fuel: nat)
    requires setup.variant == Current && fuel > 0
    requires var k := GetSessionKey(setup, server, st, false);
             k.result.Ok? && RunAction(setup, server, k.st, SendRequest(spec), k.result.value).result.Err?
    requires var k := GetSessionKey(setup, server, st, false);
             var e := RunAction(setup, server, k.st, SendRequest(spec), k.result.value).result.error;
             !Unauthorized(e) && e.status != Some(401) && e.code == None && HasServerError(e)
    ensures var k := GetSessionKey(setup, server, st, false);
            var e := RunAction(setup, server, k.st, SendRequest(spec), k.result.value).result.error;
            Request(setup, server, st, spec, fuel).result ==
              Threw(NewError(ServerErrorMessage("", e.response.value.status, Prop(e.response.value.data, "error"))))
  {
    CallbackFailureIsRethrown(setup, server, st, SendRequest(spec), false, fuel);
  }

  /** The rejection of a request the server answers with a 401. */
  const Expired: JsError := JsError("Request failed with status code 401", None, None, Some(ErrorResponse(401, Obj([]))))

  /** A server on which every session expires at once: each authentication
      request (the only kind sent without headers) gets a token, every other
      request a 401. */
  function ExpiringServer(): Server {
    (n: nat, req: HttpRequest) =>
      if req.headers == Undefined then Responded(HttpResponse(200, Obj([("sessionToken", Str("token"))])))
      else Failed(Expired)
  }

  /** On that server every round of a request asks for a retry. */
  lemma ExpiringServerAsksForRetry(setup: ClientSetup, st: Snapshot, spec: RequestSpec, force: bool)
    requires !Truthy(Override(setup)) && setup.settings.credentials.Ok? && BaseUrlOf(setup).Ok?
    ensures Round(setup, ExpiringServer(), st, SendRequest(spec), force).1
  {
    var server := ExpiringServer();
    var k := AcquireSessionKey(setup, server, st, force);
    if NeedsFetch(setup, st, force) {
      assert SessionRequest(setup).value.headers == Undefined;
      assert FetchedToken(setup, server, st) == Some(Str("token"));
    }
    assert k.result.Ok?;
    assert SessionHeader(k.result.value) != Undefined;
  }

  /** `withSessionKey` in `Current` sets no bound on its retries: against a
      server whose sessions keep expiring, a request is still retrying after
      any number of rounds, fetching a fresh key each time. */
  lemma ExpiringSessionRetriesForever(setup: ClientSetup, st: Snapshot, spec: RequestSpec, force: bool, fuel: nat)
    requires !Truthy(Override(setup)) && setup.settings.credentials.Ok? && BaseUrlOf(setup).Ok?
    ensures RetryingCall(setup, ExpiringServer(), st, SendRequest(spec), force, fuel).result == Diverged
  {
    forall st': Snapshot, f: bool
      ensures Round(setup, ExpiringServer(), st', SendRequest(spec), f).1
    {
      ExpiringServerAsksForRetry(setup, st', spec, f);
    }
    RetryingForever(setup, ExpiringServer(), st, SendRequest(spec), force, fuel);
  }

  /** A call whose every round asks for a retry never settles. */
  lemma {:induction false} RetryingForever(setup: ClientSetup, server: Server, st: Snapshot, action: Action,
                                            force: bool, fuel: nat)
    requires forall st': Snapshot, f: bool :: Round(setup, server, st', action, f).1
    ensures RetryingCall(setup, server, st, action, force, fuel).result == Diverged
    decreases fuel
  {
    if fuel > 0 {
      var next := RetryStep(setup, server, st, action, force, fuel);
      RetryingForever(setup, server, next, action, true, fuel - 1);
    }
  }

  /** A round that asks for a retry hands over to a forced retry from the
      state it left behind. */
  lemma RetryStep(setup: ClientSetup, server: Server, st: Snapshot, action: Action, force: bool, fuel: nat)
    returns (next: Snapshot)
    requires fuel > 0 && Round(setup, server, st, action, force).1
    ensures next == Round(setup, server, st, action, force).0.st
    ensures RetryingCall(setup, server, st, action, force, fuel) == RetryingCall(setup, server, next, action, true, fuel - 1)
  {
    next := Round(setup, server, st, action, force).0.st;
  }

  /** `Legacy` makes one attempt: neither the fuel nor `force` matters, the
      call always settles, and at most two requests go out. */
  lemma LegacyMakesOneAttempt(setup: ClientSetup, server: Server, st: Snapshot, action: Action, force: bool, fuel: nat)
    requires setup.variant == Legacy
    ensures var c := WithSessionKey(setup, server, st, action, force, fuel);
            c == SingleCall(setup, server, st, action) && !c.result.Diverged? &&
            st.sent <= c.st.sent && |c.st.sent| <= |st.sent| + 2
  {
    var k := GetSessionKey(setup, server, st, false);
    assert st.sent <= k.st.sent && |k.st.sent| <= |st.sent| + 1;
  }

  /** A failure to get the key reaches `request`'s caller unchanged: it was
      classified by `getSessionKey` already, so `request`'s own handler
      rethrows it as it is -- though it logs it once more as an unknown
      exception. */
  lemma KeyFailureIsRethrownByRequest(setup: ClientSetup, server: Server, st: Snapshot, spec: RequestSpec, fuel: nat)
    requires setup.variant == Current && fuel > 0
    requires BaseUrlOf(setup).Err? ==> Plain(BaseUrlOf(setup).error)
    requires GetSessionKey(setup, server, st, false).result.Err?
    ensures var k := GetSessionKey(setup, server, st, false);
            var c := Request(setup, server, st, spec, fuel);
            c.result == Threw(k.result.error) &&
            c.st.log == k.st.log + [ErrorText(UnknownErrorMessage(Context("")))]
  {
    var k := GetSessionKey(setup, server, st, false);
    var raw := AcquireSessionKey(setup, server, st, false);
    var first := CatchCommonErrors(raw.result.error, "getting a session key", BaseUrlOf(setup));
    assert k.result.error == first.thrown;
    HandlingTwiceRethrows(raw.result.error, "getting a session key", "", BaseUrlOf(setup));
    assert Unrecognised(first.thrown);
    var w := RetryingCall(setup, server, st, SendRequest(spec), false, fuel);
    assert Round(setup, server, st, SendRequest(spec), false) == (Called(Threw(k.result.error), k.st), false);
    assert w == Attempt(setup, server, st, SendRequest(spec), false, fuel - 1);
    assert w == Called(Threw(k.result.error), k.st);
    assert CatchCommonErrors(k.result.error, "", BaseUrlOf(setup)) ==
           Handled(k.result.error, Some(ErrorText(UnknownErrorMessage(Context("")))));
  }
}
